=== FILE: README.md ===
# Sales bonus report — a Dafny model

This project models `analyzeSalesData` from `src/main.js` and its two default
strategies. The function takes a snapshot of sellers, product cards and
purchase records (receipts made of line items). It returns one report row per
seller: revenue, profit, number of receipts, the ten best-selling skus, and a
bonus that depends on the seller's rank by profit.

The model follows the pipeline step by step:

- **Validation** (`validation.dfy`). The input checks, run in the source's
  order. JavaScript's dynamic tests (falsiness, `Array.isArray`, `typeof`)
  become the shape of an abstract input value. Every thrown error becomes a
  `Failure` value.
- **Indexing** (`indexing.dfy`). One fresh accumulator per seller, named
  "first last". Then a seller lookup (id to accumulator) and a product lookup
  (sku to card). For a repeated key, both keep the last entry, as
  `Object.fromEntries` does.
- **Aggregation** (`aggregation.dfy`, `sold_products.dfy`). The fold over the
  purchase records:
  - a record of an unknown seller is skipped;
  - otherwise the seller's receipt count goes up by one;
  - each item with a product card adds the strategy's revenue, the profit over
    the purchase cost, and the sold quantity (kept per sku in first-sale
    order).

  The fold is specified by functions on values. The method `Aggregate` performs
  it in place on an array of accumulators and is proved to produce the same
  result. Reference sums over each seller's attributed items state what every
  accumulator ends up holding.
- **Ranking** (`stable_sort.dfy`, `ranking.dfy`). A stable sort by
  non-increasing profit, as `Array.prototype.sort` is stable. The bonus pass
  writes each seller's bonus from its rank. The sort is specified as an
  insertion sort on sequences. `SortInPlace` sorts the array in place and is
  proved equal to it. The lemmas show it is sorted, a permutation and stable.
- **Projection** (`report.dfy`). Each row takes its seller's fields and its
  top ten skus: the sold-quantity table sorted by quantity, highest first, ties
  in first-sale order.
- **Whole pipeline** (`analyze.dfy`). `Report` is the specification of the
  pipeline. `AnalyzeSalesData` runs it imperatively and is proved to return
  `Analyze`. End-to-end lemmas state what the report promises: one row per
  seller, rows ordered by profit, the bonus of each rank, each row's totals in
  terms of the purchase records, and the total receipt count. A one-seller
  scenario is worked out exactly.

Money is `real`, so there is no floating-point error. Quantities are `int`.
The two strategies are total functions passed in through the options.

The options object is read under the keys `calculateSimpleRevenue` and
`calculateBonusByProfit` (`src/main.js:55`). `top_products` is a list of skus
(`src/main.js:136`). `purchase_records` is never checked: the input checks
look only at `data`, `data.sellers` and the options (`src/main.js:44-72`).

## Model

| member | source | states |
|---|---|---|
| Validation.Validate | src/main.js:44-72 | Succeeds exactly when `data` is an object with a non-empty sellers array and `options` is a non-array object holding two functions. On success, products default to the empty list and the two strategies are exactly the options' functions. On failure it gives invalid data before missing options. A missing function comes before a non-function, and the bonus function before the revenue function. |
| Strategies.CalculateSimpleRevenue | src/main.js:7-13 | Revenue is the gross amount minus the percentage discount. No discount gives the gross amount, a 100% discount gives zero. The product card is ignored. |
| Strategies.SimpleRevenueBounds | src/main.js:7-13 | For a non-negative gross amount and a discount in [0, 100], the revenue lies between 0 and the gross amount. |
| Strategies.CalculateBonusByProfit | src/main.js:23-33 | The default bonus is the seller's profit times the rate `BonusShare` gives for its rank and the seller count (15% for rank 0, 10% for ranks 1-2, nothing for a later last rank, 5% otherwise). |
| Strategies.BonusShare | src/main.js:23-33 | The default bonus rate is one of 0, 5, 10 or 15%. It is 15% exactly for rank 0 and 10% exactly for ranks 1-2. It is 0 exactly for a last rank of at least 3. |
| Strategies.BonusIsShareOfProfit | src/main.js:23-33 | The default bonus equals profit times that rate. A lone seller gets 15%. A zero bonus needs at least four sellers. |
| Strategies.BonusShareNonIncreasing | src/main.js:23-33 | Over valid ranks the rate never grows as the rank gets worse. |
| Strategies.BonusNonIncreasing | src/main.js:23-33 | For non-negative profits that do not increase down the ranking, the default bonus does not increase either. |
| Indexing.StatsFor | src/main.js:76-83 | One fresh accumulator per seller, in input order, carrying the seller's id and the name "first last". |
| Indexing.SellerIndex | src/main.js:86-88 | Every id the seller lookup knows maps to an in-range accumulator carrying that id. |
| Indexing.SellerIndexFinds | src/main.js:86-88 | The seller lookup knows exactly the sellers' ids. Each id maps to an in-range position holding that id, with no later position holding it (the last one wins). |
| Indexing.ProductIndex | src/main.js:90-92 | Every sku the product lookup knows maps to a card carrying that sku. |
| Indexing.ProductIndexKeys | src/main.js:90-92 | The product lookup knows exactly the skus of the product list. |
| Indexing.ProductIndexLast | src/main.js:90-92 | Each sku maps to the last card in the list with that sku. |
| SoldProducts.KeysAre | src/main.js:113-116 | A sku is in the sold-quantity table exactly when some entry carries it. |
| SoldProducts.QuantityOfEntry | src/main.js:113-116 | In a table without repeated skus, looking up an entry's sku gives that entry's quantity. |
| SoldProducts.AddQuantity | src/main.js:113-116 | After adding a sold quantity, the table holds the sku and has grown by at most one entry. |
| SoldProducts.AddQuantityKeepsOrder | src/main.js:113-116 | Adding to a present sku keeps the table's length and order. A new sku is appended with its quantity. Existing entries keep their positions. |
| SoldProducts.AddQuantityKeys | src/main.js:113-116 | Adding a quantity adds exactly that sku to the table's skus. |
| SoldProducts.AddQuantityUnique | src/main.js:113-116 | Adding a quantity never creates a repeated sku. |
| SoldProducts.AddQuantityCounts | src/main.js:113-116 | Adding `q` for a sku raises that sku's count by `q` and leaves every other sku's count unchanged. |
| Aggregation.ApplyItem | src/main.js:102-117 | An item whose sku has no card changes nothing. Any item leaves the id, name, receipt count and bonus unchanged. |
| Aggregation.FoldItems | src/main.js:102-117 | Folding a record's items never changes the id, name, receipt count or bonus. |
| Aggregation.ApplyRecord | src/main.js:95-118 | A record of an unknown seller changes nothing. Otherwise only its seller's accumulator changes, and its receipt count goes up by exactly one. |
| Aggregation.FoldRecords | src/main.js:95-118 | The fold keeps the number of accumulators and each one's id, name and bonus. |
| Aggregation.FoldItemsMoney | src/main.js:106-111 | Revenue grows by the strategy revenue of the items that have a card. Profit grows by that revenue minus their purchase cost. |
| Aggregation.FoldItemsQuantities | src/main.js:113-116 | Each sku's count grows by the quantities of that sku's items that have a card. |
| Aggregation.FoldItemsKeys | src/main.js:113-116 | The table gains exactly the skus of the items that have a card. |
| Aggregation.FoldItemsUnique | src/main.js:113-116 | Folding items keeps the table free of repeated skus. |
| Aggregation.FoldRecordsSalesCount | src/main.js:96-99 | Each seller's receipt count grows by the number of records attributed to it. |
| Aggregation.FoldRecordsMoney | src/main.js:95-118 | Each seller's revenue grows by the strategy revenue of its attributed items that have a card. Profit grows by that revenue minus their cost, so revenue minus profit grows by exactly the cost. |
| Aggregation.FoldRecordsQuantities | src/main.js:95-118 | Each seller's count for each sku grows by that sku's quantities over its attributed items that have a card. |
| Aggregation.FoldRecordsKeys | src/main.js:95-118 | Each seller's table gains exactly the skus of its attributed items that have a card. |
| Aggregation.FoldRecordsUnique | src/main.js:95-118 | No seller's table gets a repeated sku. |
| Aggregation.FoldRecordsSalesTotal | src/main.js:96-99 | The total receipt count grows by the number of records whose seller is known. |
| Aggregation.Aggregate | src/main.js:95-118 | The in-place loop over the records leaves the array equal to the fold of the records over its old contents. |
| Aggregation.AddRecord | src/main.js:96-117 | One record applied in place equals `ApplyRecord` on the old contents. |
| Aggregation.AddItems | src/main.js:102-117 | The loop over one record's items computes the items fold. |
| StableSort.Insert | src/main.js:121 | Inserting adds exactly one element. |
| StableSort.Sort | src/main.js:121 | Sorting keeps the length. |
| StableSort.InsertPermutes | src/main.js:121 | Inserting adds exactly the inserted element to the multiset. |
| StableSort.InsertKeepsSorted | src/main.js:121 | Inserting into a sequence sorted by non-increasing key keeps it sorted. |
| StableSort.InsertWithKey | src/main.js:121 | Inserting places the new element after every element already there with the same key. |
| StableSort.SortPermutes | src/main.js:121 | The sorted sequence is a permutation of the input. |
| StableSort.SortIsSorted | src/main.js:121 | The sorted sequence has non-increasing keys. |
| StableSort.SortIsStable | src/main.js:121 | For every key value, the elements with that key keep their input order. |
| StableSort.WithKeyConcat | src/main.js:121 | The elements with a given key of a concatenation are those of each part, in order. |
| StableSort.WithKeyNone | src/main.js:121 | A sequence with no element of a key has no elements with that key. |
| StableSort.InsertAt | src/main.js:121 | Inserting into a sorted sequence puts the element right after the keys at least as large as its own. |
| StableSort.InsertSumInt | src/main.js:121 | Inserting adds the element's measure to any integer total. |
| StableSort.SortSumInt | src/main.js:121 | Sorting keeps any integer total over the elements. |
| StableSort.InsertMapped | src/main.js:121 | Inserting adds the element's image to the multiset of images. |
| StableSort.SortMapped | src/main.js:121 | Sorting permutes every projection of the elements, such as their ids. |
| StableSort.SortInPlace | src/main.js:121 | The in-place sort leaves the array equal to the stable sort of its old contents. |
| StableSort.SinkLast | src/main.js:121 | Sinking the next element into the sorted prefix yields the insertion of that element and leaves the rest unchanged. |
| StableSort.Sink | src/main.js:121 | The element moves left past exactly the strictly smaller keys. Everything it passed shifts right by one and nothing else moves. |
| StableSort.SunkIsInserted | src/main.js:121 | The shape `Sink` leaves behind is the insertion into the sorted prefix. |
| Ranking.WithBonuses | src/main.js:124-128 | The bonus pass keeps one entry per seller. |
| Ranking.AssignBonuses | src/main.js:124-128 | Each seller's bonus becomes the strategy's value for its rank and the total. Nothing else about any seller changes. |
| Ranking.DefaultBonusesNonIncreasing | src/main.js:121-128 | With the default strategy and sellers ranked by non-negative profit, bonuses never grow down the ranking. |
| Reporting.TopProducts | src/main.js:133-136 | The list has ten skus, or one per table entry when the table has fewer than ten. |
| Reporting.TopProductsDistinct | src/main.js:133-136 | With no sku repeated in the table, no sku is listed twice. |
| Reporting.TopProductsComplete | src/main.js:133-136 | With at most ten skus sold, every sold sku is listed. |
| Reporting.TopProductsAreBest | src/main.js:133-136 | The top products are distinct sold skus, listed by non-increasing quantity. No sku left out sold more than one that is listed, and with at most ten sold none is left out. |
| Reporting.Row | src/main.js:138-146 | A row copies the seller's id, name, revenue, profit, receipt count and bonus, with at most ten top products. |
| Reporting.Project | src/main.js:131-147 | One row per seller, in ranking order. |
| Analysis.SellerIndexInRange | src/main.js:86-99 | Every position in the seller lookup is a position of the accumulators. |
| Analysis.Folded | src/main.js:76-118 | After the fold there is one accumulator per input seller. |
| Analysis.Ranked | src/main.js:121 | The ranking has one entry per input seller. |
| Analysis.Report | src/main.js:121-147 | The report has one row per input seller. |
| Analysis.Analyze | src/main.js:42-148 | The pipeline fails exactly when validation fails, and with the same error. On success it returns the report of the validated input. |
| Analysis.AnalyzeSalesData | src/main.js:42-148 | The imperative pipeline (array of accumulators, fold, in-place sort, bonus pass, projection) returns exactly `Analyze`. |
| Analysis.ReportRowPerSeller | src/main.js:76-147 | The row ids are the seller ids, each as often as in the input. |
| Analysis.ReportSortedByProfit | src/main.js:121 | Rows have non-increasing profit. |
| Analysis.RankingIsStable | src/main.js:121 | Sellers with equal profit keep their input order. |
| Analysis.ReportBonuses | src/main.js:124-146 | The row of rank `i` holds the bonus strategy's value for `i`, the number of sellers and that seller's accumulator. |
| Analysis.ReportSalesTotal | src/main.js:95-99 | Receipt counts over the report add up to the number of records whose seller id belongs to a listed seller. |
| Analysis.FoldedSalesTotal | src/main.js:95-99 | The same total, over the accumulators before ranking. |
| Analysis.SoldByIsById | src/main.js:86-99 | When seller ids are unique, counting the records the lookup attributes to a seller is counting the records carrying its id. |
| Analysis.ReportSalesCountById | src/main.js:95-146 | When seller ids are unique, each row's receipt count is the number of purchase records carrying that row's seller id. |
| Analysis.KnownMeansListed | src/main.js:86-97 | A record's seller is found by the lookup exactly when that id belongs to a listed seller. |
| Analysis.FoldedTotals | src/main.js:76-118 | Each seller's final accumulator holds these sums over its attributed items: receipt count, revenue and profit. Its sku table has no repeated skus, holds exactly the sold skus, and gives each sku's summed quantity. |
| Analysis.RankedIsFolded | src/main.js:121 | Every ranked entry is the final accumulator of some seller. |
| Analysis.FoldedBestSellers | src/main.js:95-136 | A folded accumulator's top products are distinct skus its seller sold, by non-increasing summed quantity; no sku left out sold more, and with fewer than ten listed none is left out. |
| Analysis.ReportRowTotals | src/main.js:131-147 | Every row reports some input seller's id, name, receipt count, revenue and profit. Its top products are distinct skus that seller sold, by non-increasing summed quantity; no sku left out sold more, and with fewer than ten listed none is left out. |
| Analysis.DefaultBonusesFollowRanking | src/main.js:121-128 | With the default bonus strategy and no seller at a loss, row bonuses never grow down the report. |
| Analysis.OneSellerReport | src/main.js:42-148 | One seller selling two units bought at 50 for 100 each gets revenue 200, profit 100, one receipt, top product that sku and bonus 15. |
| Analysis.OneSellerFold | src/main.js:95-118 | The fold of that scenario. |
| Analysis.OneSellerIndexes | src/main.js:76-92 | The accumulators and lookups of that scenario. |

## Left out

- Quantities are modelled as integers (`int`); JavaScript numbers could be fractional quantities, which the model does not admit.
- The final `toFixed(2)` and unary `+` (`src/main.js:141-145`) are not modelled. Rows carry unrounded real amounts, and JavaScript floating-point error is not modelled either.
- A strategy that throws, or returns something that is not a number, is not modelled. Strategies are total functions to reals.
- Malformed records and items are not modelled, because the model's typed records cannot express them. In the source a missing or non-array `purchase_records`, a truthy non-array `products`, a known seller's record without `items` (`src/main.js:102`) or a null item throw a `TypeError`. A missing `seller_id` or `sku` is looked up under the key `"undefined"` (`src/main.js:96`, `103`), so the record or item is skipped unless such a key exists. A missing `quantity`, `sale_price`, `discount` or `purchase_price` makes the sums `NaN` (`src/main.js:106-116`) without throwing.
- JavaScript's property-name semantics are not modelled. Ids and skus are strings, not coerced values. `Object.entries` lists integer-like keys first. Keys such as `toString` would also find inherited properties. The model treats every table as a plain map, with `products_sold` in insertion order.
- The placeholder `seller.top_products = 0` in the bonus pass (`src/main.js:127`) is not modelled, because the projection never reads it.
- Aggregation.AddItems: builds the updated accumulator as a value that `AddRecord` then writes back into the array. The source mutates the shared seller object while walking the items; the end state is the same.
- The accumulators are values stored in an array, not shared heap objects. The lookup stores array positions, which stay valid because it is only used before the sort, as in the source.
- Reporting.TopProductsAreBest: does not restate that equal quantities keep first-sale order. That follows from StableSort.SortIsStable applied to the table.
- Strategies with side effects, or that return different values on repeated calls, are not modelled. The bonus strategy receives the live accumulator (`src/main.js:126`) and could change its `profit` or `products_sold` before the projection reads them. The revenue strategy receives the input item and product (`src/main.js:107`).
- Nothing mutates the input, and repeated calls return the same report. Both hold for pure strategies and are immediate in a model over values, so no lemma states them.

=== FILE: aggregation.dfy ===
/** The aggregation fold: the purchase records are walked in order and each
    one updates the accumulator of its seller in place. The functions below
    specify the fold; `Aggregate` performs it on an array of accumulators. */
module Aggregation {
  import opened SalesTypes
  import opened Sums
  import opened SoldProducts

  /** Every position in the seller lookup is a position of the accumulators. */
  predicate IndexInRange(sellerIndex: map<string, nat>, n: nat)
  {
    forall id :: id in sellerIndex ==> sellerIndex[id] < n
  }

  /** Adds one line item to an accumulator. */
  function ApplyItem(acc: SellerStats, item: LineItem, productIndex: map<string, Product>, revenue: RevenueStrategy): (r: SellerStats)
    ensures item.sku !in productIndex ==> r == acc
    ensures r.id == acc.id && r.name == acc.name && r.salesCount == acc.salesCount && r.bonus == acc.bonus
  {
    if item.sku !in productIndex then acc
    else
      var product := productIndex[item.sku];
      var cost := ItemCost((item, product));
      var itemRevenue := revenue(item, product);
      acc.(revenue := acc.revenue + itemRevenue,
           profit := acc.profit + (itemRevenue - cost),
           productsSold := AddQuantity(acc.productsSold, item.sku, item.quantity))
  }

  /** Adds the line items of one record to an accumulator, in order. */
  function FoldItems(acc: SellerStats, items: seq<LineItem>, productIndex: map<string, Product>, revenue: RevenueStrategy): (r: SellerStats)
    ensures r.id == acc.id && r.name == acc.name && r.salesCount == acc.salesCount && r.bonus == acc.bonus
  {
    if items == [] then acc
    else ApplyItem(FoldItems(acc, items[..|items| - 1], productIndex, revenue), items[|items| - 1], productIndex, revenue)
  }

  /** Applies one purchase record: a record of an unknown seller changes
      nothing; otherwise exactly its seller's accumulator changes, its sales
      count going up by one however many items the record has. */
  function ApplyRecord(stats: seq<SellerStats>, record: PurchaseRecord, sellerIndex: map<string, nat>,
                       productIndex: map<string, Product>, revenue: RevenueStrategy): (r: seq<SellerStats>)
    requires IndexInRange(sellerIndex, |stats|)
    ensures |r| == |stats|
    ensures record.sellerId !in sellerIndex ==> r == stats
    ensures record.sellerId in sellerIndex ==>
      var k := sellerIndex[record.sellerId];
      && r[k].salesCount == stats[k].salesCount + 1
      && forall i :: 0 <= i < |stats| && i != k ==> r[i] == stats[i]
    ensures forall i :: 0 <= i < |r| ==> r[i].id == stats[i].id && r[i].name == stats[i].name && r[i].bonus == stats[i].bonus
  {
    if record.sellerId !in sellerIndex then stats
    else
      var k := sellerIndex[record.sellerId];
      var seller := stats[k];
      stats[k := FoldItems(seller.(salesCount := seller.salesCount + 1), record.items, productIndex, revenue)]
  }

  /** Applies the purchase records in order. */
  function FoldRecords(stats: seq<SellerStats>, records: seq<PurchaseRecord>, sellerIndex: map<string, nat>,
                       productIndex: map<string, Product>, revenue: RevenueStrategy): (r: seq<SellerStats>)
    requires IndexInRange(sellerIndex, |stats|)
    ensures |r| == |stats|
    ensures forall i :: 0 <= i < |r| ==> r[i].id == stats[i].id && r[i].name == stats[i].name && r[i].bonus == stats[i].bonus
  {
    if records == [] then stats
    else
      var n := |records| - 1;
      ApplyRecord(FoldRecords(stats, records[..n], sellerIndex, productIndex, revenue), records[n], sellerIndex, productIndex, revenue)
  }

  // ---------------------------------------------------------------------------
  // Reference totals: what a seller's accumulator should hold, stated as sums
  // over the line items attributed to that seller.

  /** The items whose sku has a product card, paired with that card. */
  function KnownItems(items: seq<LineItem>, productIndex: map<string, Product>): seq<(LineItem, Product)>
  {
    if items == [] then []
    else
      var n := |items| - 1;
      var item := items[n];
      KnownItems(items[..n], productIndex) + (if item.sku in productIndex then [(item, productIndex[item.sku])] else [])
  }

  /** The known items of all records whose seller sits at position `k`. */
  function AttributedItems(records: seq<PurchaseRecord>, sellerIndex: map<string, nat>,
                           productIndex: map<string, Product>, k: nat): seq<(LineItem, Product)>
  {
    if records == [] then []
    else
      var n := |records| - 1;
      var record := records[n];
      AttributedItems(records[..n], sellerIndex, productIndex, k) +
        (if record.sellerId in sellerIndex && sellerIndex[record.sellerId] == k then KnownItems(record.items, productIndex) else [])
  }

  /** 1 for a record of the seller at position `k`, else 0. */
  function SoldBy(sellerIndex: map<string, nat>, k: nat): PurchaseRecord -> int
  {
    (record: PurchaseRecord) => if record.sellerId in sellerIndex && sellerIndex[record.sellerId] == k then 1 else 0
  }

  /** 1 for a record of any known seller, else 0. */
  function FromKnownSeller(sellerIndex: map<string, nat>): PurchaseRecord -> int
  {
    (record: PurchaseRecord) => if record.sellerId in sellerIndex then 1 else 0
  }

  function ItemRevenue(revenue: RevenueStrategy): ((LineItem, Product)) -> real
  {
    (pair: (LineItem, Product)) => revenue(pair.0, pair.1)
  }

  function ItemCost(pair: (LineItem, Product)): real
  {
    pair.1.purchasePrice * pair.0.quantity as real
  }

  function ItemQuantity(sku: string): ((LineItem, Product)) -> int
  {
    (pair: (LineItem, Product)) => if pair.0.sku == sku then pair.0.quantity else 0
  }

  function SalesCountOf(s: SellerStats): int
  {
    s.salesCount
  }

  /** Folding items adds their revenue to `revenue` and their revenue minus
      their purchase cost to `profit`. */
  lemma {:induction false} FoldItemsMoney(acc: SellerStats, items: seq<LineItem>, productIndex: map<string, Product>,
                                          revenue: RevenueStrategy)
    ensures var r := FoldItems(acc, items, productIndex, revenue);
            var known := KnownItems(items, productIndex);
            && r.revenue == acc.revenue + SumReal(known, ItemRevenue(revenue))
            && r.profit == acc.profit + SumReal(known, ItemRevenue(revenue)) - SumReal(known, ItemCost)
  {
    if items != [] {
      var n := |items| - 1;
      var item := items[n];
      var before := FoldItems(acc, items[..n], productIndex, revenue);
      var knownBefore := KnownItems(items[..n], productIndex);
      FoldItemsMoney(acc, items[..n], productIndex, revenue);
      assert FoldItems(acc, items, productIndex, revenue) == ApplyItem(before, item, productIndex, revenue);
      if item.sku in productIndex {
        var pair := (item, productIndex[item.sku]);
        var known := knownBefore + [pair];
        assert KnownItems(items, productIndex) == known;
        assert known[..|known| - 1] == knownBefore;
        assert SumReal(known, ItemRevenue(revenue)) == SumReal(knownBefore, ItemRevenue(revenue)) + revenue(item, pair.1);
        assert SumReal(known, ItemCost) == SumReal(knownBefore, ItemCost) + ItemCost(pair);
      } else {
        assert KnownItems(items, productIndex) == knownBefore + [];
        assert knownBefore + [] == knownBefore;
      }
    }
  }

  /** Folding items adds their quantities, sku by sku, to `productsSold`. */
  lemma {:induction false} FoldItemsQuantities(acc: SellerStats, items: seq<LineItem>, productIndex: map<string, Product>,
                                               revenue: RevenueStrategy, sku: string)
    ensures QuantityOf(FoldItems(acc, items, productIndex, revenue).productsSold, sku) ==
            QuantityOf(acc.productsSold, sku) + SumInt(KnownItems(items, productIndex), ItemQuantity(sku))
  {
    if items != [] {
      var n := |items| - 1;
      var item := items[n];
      var before := FoldItems(acc, items[..n], productIndex, revenue);
      var knownBefore := KnownItems(items[..n], productIndex);
      FoldItemsQuantities(acc, items[..n], productIndex, revenue, sku);
      assert FoldItems(acc, items, productIndex, revenue) == ApplyItem(before, item, productIndex, revenue);
      if item.sku in productIndex {
        var pair := (item, productIndex[item.sku]);
        var known := knownBefore + [pair];
        assert KnownItems(items, productIndex) == known;
        assert known[..|known| - 1] == knownBefore;
        AddQuantityCounts(before.productsSold, item.sku, item.quantity, sku);
      } else {
        assert KnownItems(items, productIndex) == knownBefore + [];
        assert knownBefore + [] == knownBefore;
      }
    }
  }

  lemma {:induction false} FoldItemsUnique(acc: SellerStats, items: seq<LineItem>, productIndex: map<string, Product>,
                                           revenue: RevenueStrategy)
    requires UniqueKeys(acc.productsSold)
    ensures UniqueKeys(FoldItems(acc, items, productIndex, revenue).productsSold)
  {
    if items != [] {
      var n := |items| - 1;
      FoldItemsUnique(acc, items[..n], productIndex, revenue);
      var before := FoldItems(acc, items[..n], productIndex, revenue);
      if items[n].sku in productIndex {
        AddQuantityUnique(before.productsSold, items[n].sku, items[n].quantity);
      }
    }
  }

  /** The skus of a list of known items. */
  function SkusOf(pairs: seq<(LineItem, Product)>): set<string>
  {
    if pairs == [] then {} else SkusOf(pairs[..|pairs| - 1]) + {pairs[|pairs| - 1].0.sku}
  }

  lemma {:induction false} SkusOfConcat(a: seq<(LineItem, Product)>, b: seq<(LineItem, Product)>)
    ensures SkusOf(a + b) == SkusOf(a) + SkusOf(b)
  {
    if b != [] {
      var n := |b| - 1;
      SkusOfConcat(a, b[..n]);
      assert (a + b)[..|a + b| - 1] == a + b[..n];
    } else {
      assert a + b == a;
    }
  }

  /** Folding items adds exactly the skus of the known items to `productsSold`. */
  lemma {:induction false} FoldItemsKeys(acc: SellerStats, items: seq<LineItem>, productIndex: map<string, Product>,
                                         revenue: RevenueStrategy)
    ensures Keys(FoldItems(acc, items, productIndex, revenue).productsSold) ==
            Keys(acc.productsSold) + SkusOf(KnownItems(items, productIndex))
  {
    if items != [] {
      var n := |items| - 1;
      var item := items[n];
      var before := FoldItems(acc, items[..n], productIndex, revenue);
      var knownBefore := KnownItems(items[..n], productIndex);
      FoldItemsKeys(acc, items[..n], productIndex, revenue);
      if item.sku in productIndex {
        var known := knownBefore + [(item, productIndex[item.sku])];
        assert KnownItems(items, productIndex) == known;
        assert known[..|known| - 1] == knownBefore;
        AddQuantityKeys(before.productsSold, item.sku, item.quantity);
      } else {
        assert KnownItems(items, productIndex) == knownBefore + [];
        assert knownBefore + [] == knownBefore;
      }
    }
  }

  /** After the fold, each seller's sales count grew by the number of records
      attributed to it. */
  lemma {:induction false} FoldRecordsSalesCount(stats: seq<SellerStats>, records: seq<PurchaseRecord>, sellerIndex: map<string, nat>,
                                                 productIndex: map<string, Product>, revenue: RevenueStrategy, k: nat)
    requires IndexInRange(sellerIndex, |stats|)
    requires k < |stats|
    ensures FoldRecords(stats, records, sellerIndex, productIndex, revenue)[k].salesCount ==
            stats[k].salesCount + SumInt(records, SoldBy(sellerIndex, k))
  {
    if records != [] {
      var n := |records| - 1;
      FoldRecordsSalesCount(stats, records[..n], sellerIndex, productIndex, revenue, k);
    }
  }

  /** After the fold, each seller's revenue grew by the strategy's revenue of
      the known items of its records, and its profit by that revenue minus
      their purchase cost, so `revenue - profit` grew by exactly that cost. */
  lemma {:induction false} FoldRecordsMoney(stats: seq<SellerStats>, records: seq<PurchaseRecord>, sellerIndex: map<string, nat>,
                                            productIndex: map<string, Product>, revenue: RevenueStrategy, k: nat)
    requires IndexInRange(sellerIndex, |stats|)
    requires k < |stats|
    ensures var r := FoldRecords(stats, records, sellerIndex, productIndex, revenue)[k];
            var items := AttributedItems(records, sellerIndex, productIndex, k);
            && r.revenue == stats[k].revenue + SumReal(items, ItemRevenue(revenue))
            && r.profit == stats[k].profit + SumReal(items, ItemRevenue(revenue)) - SumReal(items, ItemCost)
            && r.revenue - r.profit == stats[k].revenue - stats[k].profit + SumReal(items, ItemCost)
  {
    if records != [] {
      var n := |records| - 1;
      var record := records[n];
      var before := FoldRecords(stats, records[..n], sellerIndex, productIndex, revenue);
      var itemsBefore := AttributedItems(records[..n], sellerIndex, productIndex, k);
      FoldRecordsMoney(stats, records[..n], sellerIndex, productIndex, revenue, k);
      if record.sellerId in sellerIndex && sellerIndex[record.sellerId] == k {
        var known := KnownItems(record.items, productIndex);
        var bumped := before[k].(salesCount := before[k].salesCount + 1);
        assert FoldRecords(stats, records, sellerIndex, productIndex, revenue)[k]
            == FoldItems(bumped, record.items, productIndex, revenue);
        FoldItemsMoney(bumped, record.items, productIndex, revenue);
        assert AttributedItems(records, sellerIndex, productIndex, k) == itemsBefore + known;
        SumRealConcat(itemsBefore, known, ItemRevenue(revenue));
        SumRealConcat(itemsBefore, known, ItemCost);
      } else {
        assert FoldRecords(stats, records, sellerIndex, productIndex, revenue)[k] == before[k];
        assert AttributedItems(records, sellerIndex, productIndex, k) == itemsBefore + [];
        assert itemsBefore + [] == itemsBefore;
      }
    }
  }

  /** After the fold, each sku's sold quantity in a seller's `productsSold` grew
      by the quantities of the known items with that sku in its records. */
  lemma {:induction false} FoldRecordsQuantities(stats: seq<SellerStats>, records: seq<PurchaseRecord>, sellerIndex: map<string, nat>,
                                                 productIndex: map<string, Product>, revenue: RevenueStrategy, k: nat, sku: string)
    requires IndexInRange(sellerIndex, |stats|)
    requires k < |stats|
    ensures QuantityOf(FoldRecords(stats, records, sellerIndex, productIndex, revenue)[k].productsSold, sku) ==
            QuantityOf(stats[k].productsSold, sku) + SumInt(AttributedItems(records, sellerIndex, productIndex, k), ItemQuantity(sku))
  {
    if records != [] {
      var n := |records| - 1;
      var record := records[n];
      var before := FoldRecords(stats, records[..n], sellerIndex, productIndex, revenue);
      var itemsBefore := AttributedItems(records[..n], sellerIndex, productIndex, k);
      FoldRecordsQuantities(stats, records[..n], sellerIndex, productIndex, revenue, k, sku);
      assert FoldRecords(stats, records, sellerIndex, productIndex, revenue) ==
             ApplyRecord(before, record, sellerIndex, productIndex, revenue);
      if record.sellerId in sellerIndex && sellerIndex[record.sellerId] == k {
        var known := KnownItems(record.items, productIndex);
        var bumped := before[k].(salesCount := before[k].salesCount + 1);
        FoldItemsQuantities(bumped, record.items, productIndex, revenue, sku);
        assert FoldRecords(stats, records, sellerIndex, productIndex, revenue)[k] ==
               FoldItems(bumped, record.items, productIndex, revenue);
        assert AttributedItems(records, sellerIndex, productIndex, k) == itemsBefore + known;
        SumIntConcat(itemsBefore, known, ItemQuantity(sku));
      } else {
        assert AttributedItems(records, sellerIndex, productIndex, k) == itemsBefore + [];
        assert itemsBefore + [] == itemsBefore;
      }
    }
  }

  /** After the fold, the skus in a seller's `productsSold` are the ones it
      had plus the skus of the known items attributed to it. */
  lemma {:induction false} FoldRecordsKeys(stats: seq<SellerStats>, records: seq<PurchaseRecord>, sellerIndex: map<string, nat>,
                                           productIndex: map<string, Product>, revenue: RevenueStrategy, k: nat)
    requires IndexInRange(sellerIndex, |stats|)
    requires k < |stats|
    ensures Keys(FoldRecords(stats, records, sellerIndex, productIndex, revenue)[k].productsSold) ==
            Keys(stats[k].productsSold) + SkusOf(AttributedItems(records, sellerIndex, productIndex, k))
  {
    if records != [] {
      var n := |records| - 1;
      var record := records[n];
      var before := FoldRecords(stats, records[..n], sellerIndex, productIndex, revenue);
      var itemsBefore := AttributedItems(records[..n], sellerIndex, productIndex, k);
      FoldRecordsKeys(stats, records[..n], sellerIndex, productIndex, revenue, k);
      if record.sellerId in sellerIndex && sellerIndex[record.sellerId] == k {
        var known := KnownItems(record.items, productIndex);
        var bumped := before[k].(salesCount := before[k].salesCount + 1);
        FoldItemsKeys(bumped, record.items, productIndex, revenue);
        assert FoldRecords(stats, records, sellerIndex, productIndex, revenue)[k] ==
               FoldItems(bumped, record.items, productIndex, revenue);
        assert AttributedItems(records, sellerIndex, productIndex, k) == itemsBefore + known;
        SkusOfConcat(itemsBefore, known);
      } else {
        assert FoldRecords(stats, records, sellerIndex, productIndex, revenue)[k] == before[k];
        assert AttributedItems(records, sellerIndex, productIndex, k) == itemsBefore + [];
        assert itemsBefore + [] == itemsBefore;
      }
    }
  }

  /** The fold keeps each `productsSold` free of repeated skus. */
  lemma {:induction false} FoldRecordsUnique(stats: seq<SellerStats>, records: seq<PurchaseRecord>, sellerIndex: map<string, nat>,
                                             productIndex: map<string, Product>, revenue: RevenueStrategy)
    requires IndexInRange(sellerIndex, |stats|)
    requires forall i :: 0 <= i < |stats| ==> UniqueKeys(stats[i].productsSold)
    ensures forall i :: 0 <= i < |stats| ==>
      UniqueKeys(FoldRecords(stats, records, sellerIndex, productIndex, revenue)[i].productsSold)
  {
    if records != [] {
      var n := |records| - 1;
      var record := records[n];
      var before := FoldRecords(stats, records[..n], sellerIndex, productIndex, revenue);
      FoldRecordsUnique(stats, records[..n], sellerIndex, productIndex, revenue);
      assert forall i :: 0 <= i < |before| ==> UniqueKeys(before[i].productsSold);
      if record.sellerId in sellerIndex {
        var k := sellerIndex[record.sellerId];
        assert UniqueKeys(before[k].productsSold);
        FoldItemsUnique(before[k].(salesCount := before[k].salesCount + 1), record.items, productIndex, revenue);
        var after := FoldRecords(stats, records, sellerIndex, productIndex, revenue);
        assert forall i :: 0 <= i < |after| && i != k ==> after[i] == before[i];
      }
    }
  }

  /** The fold raises the total sales count by the number of records whose
      seller is known. */
  lemma {:induction false} FoldRecordsSalesTotal(stats: seq<SellerStats>, records: seq<PurchaseRecord>, sellerIndex: map<string, nat>,
                                                 productIndex: map<string, Product>, revenue: RevenueStrategy)
    requires IndexInRange(sellerIndex, |stats|)
    ensures SumInt(FoldRecords(stats, records, sellerIndex, productIndex, revenue), SalesCountOf) ==
            SumInt(stats, SalesCountOf) + SumInt(records, FromKnownSeller(sellerIndex))
  {
    if records != [] {
      var n := |records| - 1;
      var record := records[n];
      var before := FoldRecords(stats, records[..n], sellerIndex, productIndex, revenue);
      FoldRecordsSalesTotal(stats, records[..n], sellerIndex, productIndex, revenue);
      if record.sellerId in sellerIndex {
        var k := sellerIndex[record.sellerId];
        var after := ApplyRecord(before, record, sellerIndex, productIndex, revenue);
        assert after == before[k := after[k]];
        SumIntUpdate(before, k, after[k], SalesCountOf);
      }
    }
  }

  // ---------------------------------------------------------------------------

  /** The fold as the pipeline runs it, one purchase record after another. */
  method Aggregate(stats: array<SellerStats>, records: seq<PurchaseRecord>, sellerIndex: map<string, nat>,
                   productIndex: map<string, Product>, revenue: RevenueStrategy)
    requires IndexInRange(sellerIndex, stats.Length)
    modifies stats
    ensures stats[..] == FoldRecords(old(stats[..]), records, sellerIndex, productIndex, revenue)
  {
    ghost var initial := stats[..];
    var i := 0;
    while i < |records|
      invariant 0 <= i <= |records|
      invariant stats[..] == FoldRecords(initial, records[..i], sellerIndex, productIndex, revenue)
    {
      assert records[..i + 1][..i] == records[..i];
      AddRecord(stats, records[i], sellerIndex, productIndex, revenue);
      i := i + 1;
    }
    assert records[..i] == records;
  }

  /** One purchase record: a record of an unknown seller is skipped; otherwise
      its seller's sales count goes up by one and its items are added. */
  method AddRecord(stats: array<SellerStats>, record: PurchaseRecord, sellerIndex: map<string, nat>,
                   productIndex: map<string, Product>, revenue: RevenueStrategy)
    requires IndexInRange(sellerIndex, stats.Length)
    modifies stats
    ensures stats[..] == ApplyRecord(old(stats[..]), record, sellerIndex, productIndex, revenue)
  {
    if record.sellerId !in sellerIndex {
      return;
    }
    var k := sellerIndex[record.sellerId];
    var seller := stats[k];
    seller := seller.(salesCount := seller.salesCount + 1);
    seller := AddItems(seller, record.items, productIndex, revenue);
    stats[k] := seller;
  }

  /** The line items of one record, in order: an item with a product card adds
      the strategy's revenue, the profit over the purchase cost and the sold
      quantity to the seller's accumulator; an item without one is skipped. */
  method AddItems(seller: SellerStats, items: seq<LineItem>, productIndex: map<string, Product>, revenue: RevenueStrategy)
    returns (r: SellerStats)
    ensures r == FoldItems(seller, items, productIndex, revenue)
  {
    r := seller;
    var j := 0;
    while j < |items|
      invariant 0 <= j <= |items|
      invariant r == FoldItems(seller, items[..j], productIndex, revenue)
    {
      var item := items[j];
      FoldItemsStep(seller, items, j, productIndex, revenue);
      ghost var before := r;
      if item.sku in productIndex {
        var product := productIndex[item.sku];
        var cost := ItemCost((item, product));
        var itemRevenue := revenue(item, product);
        var itemProfit := itemRevenue - cost;
        r := r.(revenue := r.revenue + itemRevenue,
                profit := r.profit + itemProfit,
                productsSold := AddQuantity(r.productsSold, item.sku, item.quantity));
        assert r == ApplyItem(before, item, productIndex, revenue);
      } else {
        assert r == ApplyItem(before, item, productIndex, revenue);
      }
      j := j + 1;
    }
    assert items[..j] == items;
  }

  /** The fold over one more item is one more `ApplyItem`. */
  lemma FoldItemsStep(seller: SellerStats, items: seq<LineItem>, j: nat, productIndex: map<string, Product>,
                      revenue: RevenueStrategy)
    requires j < |items|
    ensures FoldItems(seller, items[..j + 1], productIndex, revenue) ==
            ApplyItem(FoldItems(seller, items[..j], productIndex, revenue), items[j], productIndex, revenue)
  {
    assert items[..j + 1][..j] == items[..j];
  }
}

=== FILE: analyze.dfy ===
/** The whole report: validate the input, build one accumulator per seller,
    fold the purchase records into them, rank the sellers by profit, hand out
    the bonuses by rank and project the rows. `Report` is the specification of
    the pipeline; `AnalyzeSalesData` runs it step by step on an array of
    accumulators and is proved to produce it. */
module Analysis {
  import opened SalesTypes
  import opened Sums
  import opened StableSort
  import opened SoldProducts
  import opened Strategies
  import opened Validation
  import opened Indexing
  import opened Aggregation
  import opened Ranking
  import opened Reporting

  function SellerIndexOf(c: Config): map<string, nat>
  {
    SellerIndex(StatsFor(c.sellers))
  }

  function ProductIndexOf(c: Config): map<string, Product>
  {
    ProductIndex(c.products)
  }

  lemma SellerIndexInRange(c: Config)
    ensures IndexInRange(SellerIndexOf(c), |c.sellers|)
  {
    SellerIndexFinds(StatsFor(c.sellers));
  }

  /** The accumulators after every purchase record has been folded in, in
      seller input order. */
  function Folded(c: Config): (r: seq<SellerStats>)
    ensures |r| == |c.sellers|
  {
    SellerIndexInRange(c);
    FoldRecords(StatsFor(c.sellers), c.purchaseRecords, SellerIndexOf(c), ProductIndexOf(c), c.revenue)
  }

  /** The accumulators by non-increasing profit, ties in seller input order. */
  function Ranked(c: Config): (r: seq<SellerStats>)
    ensures |r| == |c.sellers|
  {
    Sort(Folded(c), ProfitOf)
  }

  function Report(c: Config): (r: seq<ReportRow>)
    ensures |r| == |c.sellers|
  {
    Project(WithBonuses(Ranked(c), c.bonus))
  }

  /** `analyzeSalesData`: the first failed check, or the report. */
  function Analyze(data: DataValue, options: OptionsValue): (r: Result<seq<ReportRow>, SalesError>)
    ensures r.Failure? <==> Validate(data, options).Failure?
    ensures r.Failure? ==> r.error == Validate(data, options).error
    ensures r.Success? ==> r.value == Report(Validate(data, options).value)
  {
    match Validate(data, options)
    case Failure(e) => Failure(e)
    case Success(c) => Success(Report(c))
  }

  /** The pipeline as the source runs it: the accumulators live in an array
      that is filled by the fold, sorted in place and given their bonuses in
      place before the rows are projected. */
  method AnalyzeSalesData(data: DataValue, options: OptionsValue) returns (r: Result<seq<ReportRow>, SalesError>)
    ensures r == Analyze(data, options)
  {
    var checked := Validate(data, options);
    if checked.Failure? {
      return Failure(checked.error);
    }
    var c := checked.value;
    var initial := StatsFor(c.sellers);
    var stats := new SellerStats[|initial|](i requires 0 <= i < |initial| => initial[i]);
    assert stats[..] == initial;
    var sellerIndex := SellerIndex(initial);
    var productIndex := ProductIndex(c.products);
    SellerIndexInRange(c);
    Aggregate(stats, c.purchaseRecords, sellerIndex, productIndex, c.revenue);
    SortInPlace(stats, ProfitOf);
    AssignBonuses(stats, c.bonus);
    r := Success(Project(stats[..]));
  }

  // ---------------------------------------------------------------------------
  // What the report promises.

  function RowSellerId(row: ReportRow): string
  {
    row.sellerId
  }

  function SellerIdOf(seller: Seller): string
  {
    seller.id
  }

  function StatsIdOf(s: SellerStats): string
  {
    s.id
  }

  function RowSalesCount(row: ReportRow): int
  {
    row.salesCount
  }

  /** 1 for a record whose seller id is the id of a listed seller, else 0. */
  function ByListedSeller(sellers: seq<Seller>): PurchaseRecord -> int
  {
    (record: PurchaseRecord) => if exists k :: 0 <= k < |sellers| && sellers[k].id == record.sellerId then 1 else 0
  }

  /** The report has one row per input seller: its seller ids are those of the
      sellers, each as often as in the input. */
  lemma ReportRowPerSeller(c: Config)
    ensures |Report(c)| == |c.sellers|
    ensures multiset(Mapped(Report(c), RowSellerId)) == multiset(Mapped(c.sellers, SellerIdOf))
  {
    var folded := Folded(c);
    SortMapped(folded, ProfitOf, StatsIdOf);
    var rowIds, rankedIds := Mapped(Report(c), RowSellerId), Mapped(Ranked(c), StatsIdOf);
    forall i | 0 <= i < |rowIds| ensures rowIds[i] == rankedIds[i] {
      assert Report(c)[i].sellerId == Ranked(c)[i].id;
    }
    assert rowIds == rankedIds;
    SellerIndexInRange(c);
    var foldedIds, sellerIds := Mapped(folded, StatsIdOf), Mapped(c.sellers, SellerIdOf);
    forall k | 0 <= k < |foldedIds| ensures foldedIds[k] == sellerIds[k] {
      assert folded[k].id == StatsFor(c.sellers)[k].id;
    }
    assert foldedIds == sellerIds;
  }

  /** The rows are ordered by non-increasing profit. */
  lemma ReportSortedByProfit(c: Config)
    ensures forall i, j :: 0 <= i < j < |Report(c)| ==> Report(c)[i].profit >= Report(c)[j].profit
  {
    SortIsSorted(Folded(c), ProfitOf);
    forall i, j | 0 <= i < j < |Report(c)| ensures Report(c)[i].profit >= Report(c)[j].profit {
      assert ProfitOf(Ranked(c)[i]) >= ProfitOf(Ranked(c)[j]);
    }
  }

  /** Sellers with equal profit keep their input order. */
  lemma RankingIsStable(c: Config, v: real)
    ensures WithKey(Ranked(c), ProfitOf, v) == WithKey(Folded(c), ProfitOf, v)
  {
    SortIsStable(Folded(c), ProfitOf, v);
  }

  /** Each row's bonus is what the bonus strategy gives for the row's rank among
      all rows. */
  lemma ReportBonuses(c: Config)
    ensures forall i :: 0 <= i < |Report(c)| ==>
      Report(c)[i].bonus == c.bonus(i, |c.sellers|, Ranked(c)[i]) &&
      Report(c)[i].sellerId == Ranked(c)[i].id && Report(c)[i].profit == Ranked(c)[i].profit
  {
  }

  /** The sales counts of the report add up to the number of purchase records
      whose seller is a listed seller; records of unknown sellers count for
      nobody. */
  lemma ReportSalesTotal(c: Config)
    ensures SumInt(Report(c), RowSalesCount) == SumInt(c.purchaseRecords, ByListedSeller(c.sellers))
  {
    var bonused := WithBonuses(Ranked(c), c.bonus);
    SumIntPointwise(Report(c), RowSalesCount, bonused, SalesCountOf);
    SumIntPointwise(bonused, SalesCountOf, Ranked(c), SalesCountOf);
    SortSumInt(Folded(c), ProfitOf, SalesCountOf);
    FoldedSalesTotal(c);
  }

  lemma FoldedSalesTotal(c: Config)
    ensures SumInt(Folded(c), SalesCountOf) == SumInt(c.purchaseRecords, ByListedSeller(c.sellers))
  {
    var initial := StatsFor(c.sellers);
    SellerIndexInRange(c);
    FoldRecordsSalesTotal(initial, c.purchaseRecords, SellerIndexOf(c), ProductIndexOf(c), c.revenue);
    SumIntZero(initial, SalesCountOf);
    KnownMeansListed(c);
    SumIntPointwise(c.purchaseRecords, FromKnownSeller(SellerIndexOf(c)), c.purchaseRecords, ByListedSeller(c.sellers));
  }

  /** The seller lookup knows a record's seller exactly when that seller is
      listed. */
  lemma KnownMeansListed(c: Config)
    ensures forall i :: 0 <= i < |c.purchaseRecords| ==>
      FromKnownSeller(SellerIndexOf(c))(c.purchaseRecords[i]) == ByListedSeller(c.sellers)(c.purchaseRecords[i])
  {
    var initial := StatsFor(c.sellers);
    SellerIndexFinds(initial);
    forall i | 0 <= i < |c.purchaseRecords|
      ensures FromKnownSeller(SellerIndexOf(c))(c.purchaseRecords[i]) == ByListedSeller(c.sellers)(c.purchaseRecords[i])
    {
      var id := c.purchaseRecords[i].sellerId;
      if exists k :: 0 <= k < |c.sellers| && c.sellers[k].id == id {
        var k :| 0 <= k < |c.sellers| && c.sellers[k].id == id;
        assert initial[k].id == id;
      }
    }
  }

  // ---------------------------------------------------------------------------
  // Per-seller totals.

  /** The known line items of the records attributed to the seller at
      position `k`. */
  function ItemsOf(c: Config, k: nat): seq<(LineItem, Product)>
  {
    AttributedItems(c.purchaseRecords, SellerIndexOf(c), ProductIndexOf(c), k)
  }

  function SoldQuantity(c: Config, k: nat, sku: string): int
  {
    SumInt(ItemsOf(c, k), ItemQuantity(sku))
  }

  /** What the seller at input position `k` holds after the fold, stated as
      sums over the line items attributed to it. */
  ghost predicate Totals(c: Config, k: nat, s: SellerStats)
    requires k < |c.sellers|
  {
    && s.id == c.sellers[k].id
    && s.name == c.sellers[k].firstName + " " + c.sellers[k].lastName
    && s.salesCount == SumInt(c.purchaseRecords, SoldBy(SellerIndexOf(c), k))
    && s.revenue == SumReal(ItemsOf(c, k), ItemRevenue(c.revenue))
    && s.profit == SumReal(ItemsOf(c, k), ItemRevenue(c.revenue)) - SumReal(ItemsOf(c, k), ItemCost)
    && Keys(s.productsSold) == SkusOf(ItemsOf(c, k))
    && UniqueKeys(s.productsSold)
    && (forall sku :: QuantityOf(s.productsSold, sku) == SoldQuantity(c, k, sku))
  }

  lemma FoldedTotals(c: Config, k: nat)
    requires k < |c.sellers|
    ensures Totals(c, k, Folded(c)[k])
  {
    var initial := StatsFor(c.sellers);
    var index := SellerIndexOf(c);
    var products := ProductIndexOf(c);
    SellerIndexInRange(c);
    FoldRecordsSalesCount(initial, c.purchaseRecords, index, products, c.revenue, k);
    FoldRecordsMoney(initial, c.purchaseRecords, index, products, c.revenue, k);
    FoldRecordsKeys(initial, c.purchaseRecords, index, products, c.revenue, k);
    FoldRecordsUnique(initial, c.purchaseRecords, index, products, c.revenue);
    forall sku | true ensures QuantityOf(Folded(c)[k].productsSold, sku) == SoldQuantity(c, k, sku) {
      FoldRecordsQuantities(initial, c.purchaseRecords, index, products, c.revenue, k, sku);
    }
  }

  /** Every ranked accumulator is the folded accumulator of some seller. */
  lemma RankedIsFolded(c: Config, i: nat)
    requires i < |c.sellers|
    ensures exists k :: 0 <= k < |c.sellers| && Ranked(c)[i] == Folded(c)[k]
  {
    SortPermutes(Folded(c), ProfitOf);
    assert Ranked(c)[i] in multiset(Ranked(c));
    assert Ranked(c)[i] in Folded(c);
  }

  /** What a report row says about the input seller at position `k`: its id
      and name, the number of its records, the revenue of its known items, the
      revenue minus their purchase cost as profit, and as top products its
      best sellers. */
  ghost predicate Reports(c: Config, row: ReportRow, k: nat)
    requires k < |c.sellers|
  {
    var items := ItemsOf(c, k);
    && row.sellerId == c.sellers[k].id
    && row.name == c.sellers[k].firstName + " " + c.sellers[k].lastName
    && row.salesCount == SumInt(c.purchaseRecords, SoldBy(SellerIndexOf(c), k))
    && row.revenue == SumReal(items, ItemRevenue(c.revenue))
    && row.profit == SumReal(items, ItemRevenue(c.revenue)) - SumReal(items, ItemCost)
    && BestSellers(c, k, row.topProducts)
  }

  /** `top` lists distinct skus the seller at position `k` sold, by
      non-increasing sold quantity; none left out sold more than one listed,
      and with fewer than ten listed none is left out. */
  ghost predicate BestSellers(c: Config, k: nat, top: seq<string>)
  {
    var items := ItemsOf(c, k);
    && (forall j :: 0 <= j < |top| ==> top[j] in SkusOf(items))
    && (forall j1, j2 :: 0 <= j1 < j2 < |top| ==> top[j1] != top[j2])
    && (|top| < 10 ==> forall sku :: sku in SkusOf(items) ==> sku in top)
    && (forall j1, j2 :: 0 <= j1 < j2 < |top| ==> SoldQuantity(c, k, top[j1]) >= SoldQuantity(c, k, top[j2]))
    && (forall sku, j :: sku in SkusOf(items) && sku !in top && 0 <= j < |top| ==>
          SoldQuantity(c, k, top[j]) >= SoldQuantity(c, k, sku))
  }

  /** The top products of a folded accumulator are its seller's best sellers. */
  lemma FoldedBestSellers(c: Config, k: nat)
    requires k < |c.sellers|
    ensures BestSellers(c, k, TopProducts(Folded(c)[k].productsSold))
  {
    FoldedTotals(c, k);
    TopProductsAreBest(Folded(c)[k].productsSold);
  }

  /** Every row of the report reports the totals of some input seller. */
  lemma ReportRowTotals(c: Config, i: nat)
    requires i < |c.sellers|
    ensures exists k :: 0 <= k < |c.sellers| && Reports(c, Report(c)[i], k)
  {
    RankedIsFolded(c, i);
    var k :| 0 <= k < |c.sellers| && Ranked(c)[i] == Folded(c)[k];
    FoldedTotals(c, k);
    var s := Folded(c)[k];
    FoldedBestSellers(c, k);
    var bonused := WithBonuses(Ranked(c), c.bonus);
    assert bonused[i] == s.(bonus := Some(c.bonus(i, |c.sellers|, s)));
    var row := Report(c)[i];
    assert row == Row(bonused[i]);
    assert row.topProducts == TopProducts(s.productsSold);
    assert Reports(c, row, k);
  }

  /** 1 for a record of the seller with this id, else 0. */
  function RecordsBy(id: string): PurchaseRecord -> int
  {
    (record: PurchaseRecord) => if record.sellerId == id then 1 else 0
  }

  ghost predicate UniqueSellerIds(sellers: seq<Seller>)
  {
    forall i, j :: 0 <= i < j < |sellers| ==> sellers[i].id != sellers[j].id
  }

  /** With unique seller ids, the records attributed to the seller at position
      `k` are exactly the records carrying its id. */
  lemma SoldByIsById(c: Config, k: nat)
    requires k < |c.sellers|
    requires UniqueSellerIds(c.sellers)
    ensures SumInt(c.purchaseRecords, SoldBy(SellerIndexOf(c), k)) == SumInt(c.purchaseRecords, RecordsBy(c.sellers[k].id))
  {
    var initial := StatsFor(c.sellers);
    var index := SellerIndexOf(c);
    SellerIndexFinds(initial);
    forall i | 0 <= i < |c.purchaseRecords|
      ensures SoldBy(index, k)(c.purchaseRecords[i]) == RecordsBy(c.sellers[k].id)(c.purchaseRecords[i])
    {
      var id := c.purchaseRecords[i].sellerId;
      if id == c.sellers[k].id {
        assert initial[k].id == id;
        assert c.sellers[index[id]].id == id;
      } else if id in index {
        assert c.sellers[index[id]].id == id;
      }
    }
    SumIntPointwise(c.purchaseRecords, SoldBy(index, k), c.purchaseRecords, RecordsBy(c.sellers[k].id));
  }

  /** With unique seller ids, every row's receipt count is the number of
      purchase records carrying the row's seller id. */
  lemma ReportSalesCountById(c: Config, i: nat)
    requires i < |c.sellers|
    requires UniqueSellerIds(c.sellers)
    ensures Report(c)[i].salesCount == SumInt(c.purchaseRecords, RecordsBy(Report(c)[i].sellerId))
  {
    ReportRowTotals(c, i);
    var k :| 0 <= k < |c.sellers| && Reports(c, Report(c)[i], k);
    SoldByIsById(c, k);
  }

  /** With the default bonus strategy and no seller ending at a loss, bonuses
      never grow down the report. */
  lemma DefaultBonusesFollowRanking(c: Config)
    requires forall k :: 0 <= k < |Folded(c)| ==> Folded(c)[k].profit >= 0.0
    ensures var rows := Report(c.(bonus := CalculateBonusByProfit));
            forall i, j :: 0 <= i < j < |rows| ==> rows[i].bonus >= rows[j].bonus
  {
    var d := c.(bonus := CalculateBonusByProfit);
    assert Folded(d) == Folded(c);
    SortIsSorted(Folded(c), ProfitOf);
    SortPermutes(Folded(c), ProfitOf);
    forall i | 0 <= i < |Ranked(c)| ensures Ranked(c)[i].profit >= 0.0 {
      assert Ranked(c)[i] in multiset(Ranked(c));
    }
    DefaultBonusesNonIncreasing(Ranked(c));
  }

  /** One seller selling two units bought at 50 for 100 each, no discount:
      revenue 200, profit 100, one sale, and the first-place bonus of 15%. */
  lemma OneSellerReport()
    ensures var data := DataObject(Some([Seller("seller_1", "Ivan", "Petrov")]), Some([Product("SKU_001", 50.0)]),
                                   [PurchaseRecord("seller_1", [LineItem("SKU_001", 2, 100.0, 0.0)])]);
            var options := OptionsObject(Function(CalculateSimpleRevenue), Function(CalculateBonusByProfit));
            Analyze(data, options) == Success([ReportRow("seller_1", "Ivan Petrov", 200.0, 100.0, 1, ["SKU_001"], 15.0)])
  {
    var data := DataObject(Some([Seller("seller_1", "Ivan", "Petrov")]), Some([Product("SKU_001", 50.0)]),
                           [PurchaseRecord("seller_1", [LineItem("SKU_001", 2, 100.0, 0.0)])]);
    var options := OptionsObject(Function(CalculateSimpleRevenue), Function(CalculateBonusByProfit));
    var c := OneSellerConfig();
    var done := SellerStats("seller_1", "Ivan Petrov", 200.0, 100.0, 1, [("SKU_001", 2)], None);
    assert Validate(data, options) == Success(c);
    OneSellerFold();
    assert Ranked(c) == [done];
    assert WithBonuses(Ranked(c), c.bonus) == [done.(bonus := Some(15.0))];
    assert TopProducts(done.productsSold) == ["SKU_001"];
    assert Report(c) == [Row(done.(bonus := Some(15.0)))];
    assert Analyze(data, options) == Success(Report(c));
  }

  function OneSellerConfig(): Config
  {
    Config([Seller("seller_1", "Ivan", "Petrov")], [Product("SKU_001", 50.0)],
           [PurchaseRecord("seller_1", [LineItem("SKU_001", 2, 100.0, 0.0)])], CalculateSimpleRevenue, CalculateBonusByProfit)
  }

  lemma OneSellerFold()
    ensures Folded(OneSellerConfig()) == [SellerStats("seller_1", "Ivan Petrov", 200.0, 100.0, 1, [("SKU_001", 2)], None)]
  {
    var c := OneSellerConfig();
    var item := LineItem("SKU_001", 2, 100.0, 0.0);
    var product := Product("SKU_001", 50.0);
    var start := SellerStats("seller_1", "Ivan Petrov", 0.0, 0.0, 0, [], None);
    var done := SellerStats("seller_1", "Ivan Petrov", 200.0, 100.0, 1, [("SKU_001", 2)], None);
    OneSellerIndexes();
    assert CalculateSimpleRevenue(item, product) == 200.0;
    assert [item][..0] == [];
    assert FoldItems(start.(salesCount := 1), [item], ProductIndexOf(c), c.revenue) == done;
    assert c.purchaseRecords[..0] == [];
    assert ApplyRecord([start], c.purchaseRecords[0], SellerIndexOf(c), ProductIndexOf(c), c.revenue) == [done];
  }

  lemma OneSellerIndexes()
    ensures StatsFor(OneSellerConfig().sellers) == [SellerStats("seller_1", "Ivan Petrov", 0.0, 0.0, 0, [], None)]
    ensures SellerIndexOf(OneSellerConfig()) == map["seller_1" := 0]
    ensures ProductIndexOf(OneSellerConfig()) == map["SKU_001" := Product("SKU_001", 50.0)]
  {
    var c := OneSellerConfig();
    var start := SellerStats("seller_1", "Ivan Petrov", 0.0, 0.0, 0, [], None);
    var product := Product("SKU_001", 50.0);
    assert "Ivan" + " " + "Petrov" == "Ivan Petrov";
    assert StatsFor(c.sellers) == [start];
    assert [start][..0] == [];
    assert SellerIndex([start]) == SellerIndex([])[start.id := 0];
    assert [product][..0] == [];
    assert ProductIndex([product]) == ProductIndex([])[product.sku := product];
  }
}

=== FILE: indexing.dfy ===
/** Preparation of the aggregation: one fresh accumulator per seller in input
    order, and the seller and product lookups. A lookup built from a list
    keeps, for a repeated key, the last entry with that key. */
module Indexing {
  import opened SalesTypes

  /** An accumulator nothing has been added to yet. */
  predicate IsFresh(s: SellerStats)
  {
    s.revenue == 0.0 && s.profit == 0.0 && s.salesCount == 0 && s.productsSold == [] && s.bonus.None?
  }

  /** The accumulators, one per seller in input order, named "first last". */
  function StatsFor(sellers: seq<Seller>): (r: seq<SellerStats>)
    ensures |r| == |sellers|
    ensures forall i :: 0 <= i < |r| ==>
      IsFresh(r[i]) && r[i].id == sellers[i].id &&
      r[i].name == sellers[i].firstName + " " + sellers[i].lastName
  {
    seq(|sellers|, i requires 0 <= i < |sellers| =>
      SellerStats(sellers[i].id, sellers[i].firstName + " " + sellers[i].lastName, 0.0, 0.0, 0, [], None))
  }

  /** Seller id to the position of its accumulator (`Object.fromEntries`). */
  function SellerIndex(stats: seq<SellerStats>): (r: map<string, nat>)
    ensures forall id :: id in r ==> r[id] < |stats| && stats[r[id]].id == id
  {
    if stats == [] then map[]
    else
      var n := |stats| - 1;
      SellerIndex(stats[..n])[stats[n].id := n]
  }

  /** The seller lookup knows exactly the ids of the accumulators, and maps each
      to the last accumulator carrying it. */
  lemma {:induction false} SellerIndexFinds(stats: seq<SellerStats>)
    ensures forall id :: id in SellerIndex(stats) <==> exists i :: 0 <= i < |stats| && stats[i].id == id
    ensures forall id :: id in SellerIndex(stats) ==>
      SellerIndex(stats)[id] < |stats| && stats[SellerIndex(stats)[id]].id == id &&
      forall j :: SellerIndex(stats)[id] < j < |stats| ==> stats[j].id != id
  {
    if stats != [] {
      var n := |stats| - 1;
      SellerIndexFinds(stats[..n]);
      forall id | exists i :: 0 <= i < |stats| && stats[i].id == id
        ensures id in SellerIndex(stats)
      {
        var i :| 0 <= i < |stats| && stats[i].id == id;
        if i < n {
          assert stats[..n][i].id == id;
        }
      }
    }
  }

  /** Product sku to its product card (`Object.fromEntries`). */
  function ProductIndex(products: seq<Product>): (r: map<string, Product>)
    ensures forall sku :: sku in r ==> r[sku].sku == sku
  {
    if products == [] then map[]
    else
      var n := |products| - 1;
      ProductIndex(products[..n])[products[n].sku := products[n]]
  }

  /** The product lookup knows exactly the skus of the product list. */
  lemma {:induction false} ProductIndexKeys(products: seq<Product>)
    ensures forall sku :: sku in ProductIndex(products) <==> exists i :: 0 <= i < |products| && products[i].sku == sku
  {
    if products != [] {
      var n := |products| - 1;
      var prefix := products[..n];
      ProductIndexKeys(prefix);
      forall sku | exists i :: 0 <= i < |products| && products[i].sku == sku
        ensures sku in ProductIndex(products)
      {
        var i :| 0 <= i < |products| && products[i].sku == sku;
        if i < n {
          assert prefix[i].sku == sku;
        }
      }
    }
  }

  /** The product lookup maps each sku to the last card carrying it. */
  lemma {:induction false} ProductIndexLast(products: seq<Product>, sku: string)
    requires sku in ProductIndex(products)
    ensures exists i :: LastCardAt(products, sku, i) && products[i] == ProductIndex(products)[sku]
  {
    var n := |products| - 1;
    var prefix := products[..n];
    if sku != products[n].sku {
      ProductIndexLast(prefix, sku);
      var i :| LastCardAt(prefix, sku, i) && prefix[i] == ProductIndex(prefix)[sku];
      assert ProductIndex(products)[sku] == ProductIndex(prefix)[sku];
      assert products[i] == prefix[i];
      assert LastCardAt(products, sku, i);
    } else {
      assert LastCardAt(products, sku, n);
    }
  }

  /** Position `i` holds the last card with this sku. */
  ghost predicate LastCardAt(products: seq<Product>, sku: string, i: int)
  {
    0 <= i < |products| && products[i].sku == sku && forall j :: i < j < |products| ==> products[j].sku != sku
  }
}

=== FILE: ranking.dfy ===
/** Ranking by profit and the bonus pass. The sort itself is
    `StableSort.SortInPlace` keyed by `ProfitOf`. */
module Ranking {
  import opened SalesTypes
  import opened StableSort
  import opened Strategies

  function ProfitOf(s: SellerStats): real
  {
    s.profit
  }

  /** The ranking writes onto each seller the bonus the strategy gives for its
      rank (0-based) among all sellers. */
  function WithBonuses(ranked: seq<SellerStats>, bonus: BonusStrategy): (r: seq<SellerStats>)
    ensures |r| == |ranked|
  {
    seq(|ranked|, i requires 0 <= i < |ranked| => ranked[i].(bonus := Some(bonus(i, |ranked|, ranked[i]))))
  }

  /** The bonus pass over the ranked sellers, in rank order. */
  method AssignBonuses(sellers: array<SellerStats>, bonus: BonusStrategy)
    modifies sellers
    ensures sellers[..] == WithBonuses(old(sellers[..]), bonus)
    ensures forall i :: 0 <= i < sellers.Length ==>
      sellers[i].bonus == Some(bonus(i, sellers.Length, old(sellers[i]))) &&
      sellers[i].(bonus := None) == old(sellers[i]).(bonus := None)
  {
    var total := sellers.Length;
    var index := 0;
    while index < total
      invariant 0 <= index <= total
      invariant forall i :: 0 <= i < index ==> sellers[i] == old(sellers[i]).(bonus := Some(bonus(i, total, old(sellers[i]))))
      invariant forall i :: index <= i < total ==> sellers[i] == old(sellers[i])
    {
      var seller := sellers[index];
      sellers[index] := seller.(bonus := Some(bonus(index, total, seller)));
      index := index + 1;
    }
  }

  /** With the default bonus strategy and sellers ranked by non-increasing,
      non-negative profit, the bonuses never grow down the ranking. */
  lemma DefaultBonusesNonIncreasing(ranked: seq<SellerStats>)
    requires SortedDesc(ranked, ProfitOf)
    requires forall i :: 0 <= i < |ranked| ==> ranked[i].profit >= 0.0
    ensures var r := WithBonuses(ranked, CalculateBonusByProfit);
            forall i, j :: 0 <= i < j < |r| ==> r[i].bonus.value >= r[j].bonus.value
  {
    var r := WithBonuses(ranked, CalculateBonusByProfit);
    forall i, j | 0 <= i < j < |r| ensures r[i].bonus.value >= r[j].bonus.value {
      assert ProfitOf(ranked[i]) >= ProfitOf(ranked[j]);
      BonusNonIncreasing(i, j, |ranked|, ranked[i], ranked[j]);
    }
  }
}

=== FILE: report.dfy ===
/** The final projection: one report row per ranked seller, with the seller's
    ten best-selling products. */
module Reporting {
  import opened SalesTypes
  import opened StableSort
  import opened SoldProducts

  /** Sort key of a tally entry: the quantity sold. */
  function QuantityKey(entry: (string, int)): real
  {
    entry.1 as real
  }

  /** The skus of the (at most) ten entries with the largest quantities, ties
      kept in the tally's insertion order. */
  function TopProducts(productsSold: Tally): (r: seq<string>)
    ensures |r| == if |productsSold| < 10 then |productsSold| else 10
  {
    var ranked := Sort(productsSold, QuantityKey);
    var top := if |ranked| < 10 then ranked else ranked[..10];
    seq(|top|, i requires 0 <= i < |top| => top[i].0)
  }

  /** Every entry of the sorted tally is an entry of the tally itself. */
  lemma SortedEntryIsEntry(ps: Tally, i: nat)
    requires i < |ps|
    ensures exists m :: 0 <= m < |ps| && ps[m] == Sort(ps, QuantityKey)[i]
  {
    var sorted := Sort(ps, QuantityKey);
    SortPermutes(ps, QuantityKey);
    assert sorted[i] in multiset(sorted);
    assert sorted[i] in ps;
  }

  /** Every entry of the tally appears somewhere in the sorted tally. */
  lemma EntryIsSortedEntry(ps: Tally, m: nat)
    requires m < |ps|
    ensures exists p :: 0 <= p < |ps| && Sort(ps, QuantityKey)[p] == ps[m]
  {
    var sorted := Sort(ps, QuantityKey);
    SortPermutes(ps, QuantityKey);
    assert ps[m] in multiset(ps);
    assert ps[m] in sorted;
  }

  /** In a tally without repeated skus, no entry occurs twice. */
  lemma {:induction false} EntryOccursOnce(ps: Tally, x: (string, int))
    requires UniqueKeys(ps)
    ensures multiset(ps)[x] <= 1
  {
    if ps != [] {
      var tail := ps[1..];
      forall i, j | 0 <= i < j < |tail|
        ensures tail[i].0 != tail[j].0
      {
        assert tail[i] == ps[i + 1] && tail[j] == ps[j + 1];
      }
      EntryOccursOnce(tail, x);
      assert ps == [ps[0]] + tail;
      assert multiset(ps) == multiset([ps[0]]) + multiset(tail);
      if ps[0] == x {
        forall i | 0 <= i < |tail|
          ensures tail[i] != x
        {
          assert tail[i] == ps[i + 1];
        }
        assert x !in multiset(tail);
      }
    }
  }

  /** An entry found at two positions occurs at least twice. */
  lemma RepeatedEntryTwice(s: Tally, i: nat, j: nat)
    requires i < j < |s| && s[i] == s[j]
    ensures multiset(s)[s[i]] >= 2
  {
    assert s == s[..j] + s[j..];
    assert multiset(s) == multiset(s[..j]) + multiset(s[j..]);
    assert s[..j][i] == s[i];
    assert s[j..][0] == s[j];
  }

  /** No sku is listed twice among the top products. */
  lemma TopProductsDistinct(ps: Tally)
    requires UniqueKeys(ps)
    ensures var r := TopProducts(ps);
            forall i, j :: 0 <= i < j < |r| ==> r[i] != r[j]
  {
    var r := TopProducts(ps);
    var sorted := Sort(ps, QuantityKey);
    SortPermutes(ps, QuantityKey);
    assert forall i :: 0 <= i < |r| ==> r[i] == sorted[i].0;
    forall i, j | 0 <= i < j < |r|
      ensures r[i] != r[j]
    {
      SortedEntryIsEntry(ps, i);
      var mi :| 0 <= mi < |ps| && ps[mi] == sorted[i];
      SortedEntryIsEntry(ps, j);
      var mj :| 0 <= mj < |ps| && ps[mj] == sorted[j];
      if r[i] == r[j] {
        EntryOccursOnce(ps, sorted[i]);
        assert mi == mj;
        RepeatedEntryTwice(sorted, i, j);
        assert false;
      }
    }
  }

  /** With at most ten skus sold, every one of them is a top product. */
  lemma TopProductsComplete(ps: Tally)
    ensures var r := TopProducts(ps);
            |ps| <= 10 ==> forall sku :: sku in Keys(ps) ==> sku in r
  {
    var r := TopProducts(ps);
    var sorted := Sort(ps, QuantityKey);
    if |ps| <= 10 {
      forall sku | sku in Keys(ps)
        ensures sku in r
      {
        KeysAre(ps, sku);
        var m :| 0 <= m < |ps| && ps[m].0 == sku;
        EntryIsSortedEntry(ps, m);
        var p :| 0 <= p < |ps| && sorted[p] == ps[m];
        assert r[p] == sku;
      }
    }
  }

  /** The top products are distinct products the seller sold, listed by
      non-increasing quantity; no product left out sold more than any product
      listed, and with at most ten products sold every one is listed. */
  lemma TopProductsAreBest(ps: Tally)
    requires UniqueKeys(ps)
    ensures var r := TopProducts(ps);
            (forall i :: 0 <= i < |r| ==> r[i] in Keys(ps)) &&
            (forall i, j :: 0 <= i < j < |r| ==> r[i] != r[j]) &&
            (forall i, j :: 0 <= i < j < |r| ==> QuantityOf(ps, r[i]) >= QuantityOf(ps, r[j])) &&
            (forall sku, i :: sku in Keys(ps) && sku !in r && 0 <= i < |r| ==>
               QuantityOf(ps, r[i]) >= QuantityOf(ps, sku)) &&
            (|ps| <= 10 ==> forall sku :: sku in Keys(ps) ==> sku in r)
  {
    var r := TopProducts(ps);
    var sorted := Sort(ps, QuantityKey);
    SortIsSorted(ps, QuantityKey);
    assert forall i :: 0 <= i < |r| ==> r[i] == sorted[i].0;
    forall i | 0 <= i < |r|
      ensures r[i] in Keys(ps) && QuantityOf(ps, r[i]) == sorted[i].1
    {
      SortedEntryIsEntry(ps, i);
      var m :| 0 <= m < |ps| && ps[m] == sorted[i];
      KeysAre(ps, r[i]);
      QuantityOfEntry(ps, m);
    }
    TopProductsDistinct(ps);
    TopProductsComplete(ps);
    forall i, j | 0 <= i < j < |r|
      ensures QuantityOf(ps, r[i]) >= QuantityOf(ps, r[j])
    {
      assert QuantityKey(sorted[i]) >= QuantityKey(sorted[j]);
    }
    forall sku, i | sku in Keys(ps) && sku !in r && 0 <= i < |r|
      ensures QuantityOf(ps, r[i]) >= QuantityOf(ps, sku)
    {
      KeysAre(ps, sku);
      var m :| 0 <= m < |ps| && ps[m].0 == sku;
      EntryIsSortedEntry(ps, m);
      var p :| 0 <= p < |ps| && sorted[p] == ps[m];
      assert forall q :: 0 <= q < |r| ==> sorted[q].0 in r;
      assert sorted[p].0 == sku;
      QuantityOfEntry(ps, m);
      assert QuantityKey(sorted[i]) >= QuantityKey(sorted[p]);
    }
  }

  /** The report row of one seller, once the bonus is set. */
  function Row(seller: SellerStats): (r: ReportRow)
    requires seller.bonus.Some?
    ensures r.sellerId == seller.id && r.name == seller.name
    ensures r.revenue == seller.revenue && r.profit == seller.profit
    ensures r.salesCount == seller.salesCount && r.bonus == seller.bonus.value
    ensures |r.topProducts| <= 10
  {
    ReportRow(seller.id, seller.name, seller.revenue, seller.profit, seller.salesCount,
              TopProducts(seller.productsSold), seller.bonus.value)
  }

  predicate AllBonused(sellers: seq<SellerStats>)
  {
    forall i :: 0 <= i < |sellers| ==> sellers[i].bonus.Some?
  }

  /** One row per seller, in the same order. */
  function Project(sellers: seq<SellerStats>): (r: seq<ReportRow>)
    requires AllBonused(sellers)
    ensures |r| == |sellers|
    ensures forall i :: 0 <= i < |r| ==> r[i] == Row(sellers[i])
  {
    seq(|sellers|, i requires 0 <= i < |sellers| => Row(sellers[i]))
  }
}

=== FILE: sold_products.dfy ===
/** The per-seller `products_sold` table: sold quantity per sku, kept in the
    order in which each sku was first sold. */
module SoldProducts {
  import opened SalesTypes

  /** The skus present in the table. */
  function Keys(ps: Tally): set<string>
  {
    if ps == [] then {} else {ps[0].0} + Keys(ps[1..])
  }

  lemma {:induction false} KeysAre(ps: Tally, sku: string)
    ensures sku in Keys(ps) <==> exists i :: 0 <= i < |ps| && ps[i].0 == sku
  {
    if ps != [] {
      KeysAre(ps[1..], sku);
      if sku in Keys(ps[1..]) {
        var i :| 0 <= i < |ps[1..]| && ps[1..][i].0 == sku;
        assert ps[i + 1].0 == sku;
      }
      if exists i :: 0 <= i < |ps| && ps[i].0 == sku {
        var i :| 0 <= i < |ps| && ps[i].0 == sku;
        if i > 0 {
          assert ps[1..][i - 1].0 == sku;
        }
      }
    }
  }

  ghost predicate UniqueKeys(ps: Tally)
  {
    forall i, j :: 0 <= i < j < |ps| ==> ps[i].0 != ps[j].0
  }

  /** The quantity recorded for `sku`, 0 when the sku was never sold. */
  function QuantityOf(ps: Tally, sku: string): int
  {
    if ps == [] then 0
    else if ps[0].0 == sku then ps[0].1
    else QuantityOf(ps[1..], sku)
  }

  /** With no repeated sku, the quantity of a sku is the one of its entry. */
  lemma {:induction false} QuantityOfEntry(ps: Tally, i: nat)
    requires UniqueKeys(ps)
    requires i < |ps|
    ensures QuantityOf(ps, ps[i].0) == ps[i].1
  {
    if i > 0 {
      assert ps[0].0 != ps[i].0;
      assert ps[1..][i - 1] == ps[i];
      QuantityOfEntry(ps[1..], i - 1);
    }
  }

  /** `products_sold[sku] += quantity`, creating the entry with 0 first when
      absent: an existing sku keeps its place, a new one goes last. */
  function AddQuantity(ps: Tally, sku: string, quantity: int): (r: Tally)
    ensures |r| == |ps| || |r| == |ps| + 1
    ensures |r| > 0 && sku in Keys(r)
  {
    if ps == [] then [(sku, quantity)]
    else if ps[0].0 == sku then [(sku, ps[0].1 + quantity)] + ps[1..]
    else [ps[0]] + AddQuantity(ps[1..], sku, quantity)
  }

  /** Insertion order: the skus already present keep their places, and a new
      sku is appended with its quantity. */
  lemma {:induction false} AddQuantityKeepsOrder(ps: Tally, sku: string, quantity: int)
    ensures var r := AddQuantity(ps, sku, quantity);
            && (sku in Keys(ps) ==> |r| == |ps|)
            && (sku !in Keys(ps) ==> r == ps + [(sku, quantity)])
            && |r| >= |ps|
    ensures forall i :: 0 <= i < |ps| ==> AddQuantity(ps, sku, quantity)[i].0 == ps[i].0
  {
    if ps != [] && ps[0].0 != sku {
      AddQuantityKeepsOrder(ps[1..], sku, quantity);
      var r := AddQuantity(ps, sku, quantity);
      assert r == [ps[0]] + AddQuantity(ps[1..], sku, quantity);
      if sku !in Keys(ps) {
        assert ps == [ps[0]] + ps[1..];
      }
      forall i | 1 <= i < |ps| ensures r[i].0 == ps[i].0 {
        assert r[i] == AddQuantity(ps[1..], sku, quantity)[i - 1];
      }
    }
  }

  lemma {:induction false} AddQuantityKeys(ps: Tally, sku: string, quantity: int)
    ensures Keys(AddQuantity(ps, sku, quantity)) == Keys(ps) + {sku}
  {
    if ps != [] && ps[0].0 != sku {
      var rest := AddQuantity(ps[1..], sku, quantity);
      AddQuantityKeys(ps[1..], sku, quantity);
      assert AddQuantity(ps, sku, quantity) == [ps[0]] + rest;
      assert ([ps[0]] + rest)[1..] == rest;
    } else if ps != [] {
      assert AddQuantity(ps, sku, quantity)[1..] == ps[1..];
    }
  }

  lemma {:induction false} AddQuantityUnique(ps: Tally, sku: string, quantity: int)
    requires UniqueKeys(ps)
    ensures UniqueKeys(AddQuantity(ps, sku, quantity))
  {
    var r := AddQuantity(ps, sku, quantity);
    if ps != [] && ps[0].0 != sku {
      var rest := AddQuantity(ps[1..], sku, quantity);
      AddQuantityUnique(ps[1..], sku, quantity);
      assert r == [ps[0]] + rest;
      forall j | 1 <= j < |r| ensures r[0].0 != r[j].0 {
        var key := rest[j - 1].0;
        assert r[j] == rest[j - 1];
        AddQuantityKeys(ps[1..], sku, quantity);
        KeysAre(rest, key);
        KeysAre(ps[1..], key);
        if key != sku {
          var m :| 0 <= m < |ps[1..]| && ps[1..][m].0 == key;
          assert ps[m + 1].0 == key;
        }
      }
      forall i, j | 1 <= i < j < |r| ensures r[i].0 != r[j].0 {
        assert r[i] == rest[i - 1] && r[j] == rest[j - 1];
      }
    } else if ps != [] {
      assert forall i :: 1 <= i < |r| ==> r[i] == ps[i];
    }
  }

  /** Adding to one sku changes its quantity by that amount and no other. */
  lemma {:induction false} AddQuantityCounts(ps: Tally, sku: string, quantity: int, other: string)
    ensures QuantityOf(AddQuantity(ps, sku, quantity), other) ==
      QuantityOf(ps, other) + (if other == sku then quantity else 0)
  {
    if ps == [] {
      assert QuantityOf(ps, other) == 0;
    } else if ps[0].0 != sku {
      AddQuantityCounts(ps[1..], sku, quantity, other);
      assert AddQuantity(ps, sku, quantity)[1..] == AddQuantity(ps[1..], sku, quantity);
    } else {
      assert AddQuantity(ps, sku, quantity)[1..] == ps[1..];
    }
  }
}

=== FILE: stable_sort.dfy ===
/** A stable sort by a numeric key, in descending order. The JavaScript engine's
    `Array.prototype.sort` is stable, so elements with equal keys keep their
    relative order. `Sort` is the specification (insertion sort on values);
    `SortInPlace` sorts an array in place and is proved to produce `Sort`. */
module StableSort {
  import opened Sums

  ghost predicate SortedDesc<T>(s: seq<T>, key: T -> real)
  {
    forall i, j :: 0 <= i < j < |s| ==> key(s[i]) >= key(s[j])
  }

  /** The elements of `s` whose key is `v`, in their order in `s`. */
  function WithKey<T>(s: seq<T>, key: T -> real, v: real): seq<T>
  {
    if s == [] then []
    else (if key(s[0]) == v then [s[0]] else []) + WithKey(s[1..], key, v)
  }

  lemma {:induction false} WithKeyConcat<T>(a: seq<T>, b: seq<T>, key: T -> real, v: real)
    ensures WithKey(a + b, key, v) == WithKey(a, key, v) + WithKey(b, key, v)
  {
    if a == [] {
      assert a + b == b;
    } else {
      var head := if key(a[0]) == v then [a[0]] else [];
      assert (a + b)[0] == a[0];
      assert (a + b)[1..] == a[1..] + b;
      WithKeyConcat(a[1..], b, key, v);
      assert WithKey(a + b, key, v) == head + (WithKey(a[1..], key, v) + WithKey(b, key, v));
      assert WithKey(a, key, v) == head + WithKey(a[1..], key, v);
    }
  }

  lemma {:induction false} WithKeyNone<T>(s: seq<T>, key: T -> real, v: real)
    requires forall i :: 0 <= i < |s| ==> key(s[i]) < v
    ensures WithKey(s, key, v) == []
  {
    if s != [] {
      WithKeyNone(s[1..], key, v);
    }
  }

  /** Inserts `x` after every element whose key is at least `key(x)`. */
  function Insert<T>(s: seq<T>, x: T, key: T -> real): (r: seq<T>)
    ensures |r| == |s| + 1
  {
    if s == [] then [x]
    else if key(s[0]) >= key(x) then [s[0]] + Insert(s[1..], x, key)
    else [x] + s
  }

  /** Stable insertion sort, taking the elements left to right. */
  function Sort<T>(s: seq<T>, key: T -> real): (r: seq<T>)
    ensures |r| == |s|
  {
    if s == [] then [] else Insert(Sort(s[..|s| - 1], key), s[|s| - 1], key)
  }

  lemma {:induction false} InsertPermutes<T>(s: seq<T>, x: T, key: T -> real)
    ensures multiset(Insert(s, x, key)) == multiset(s) + multiset{x}
  {
    if s != [] && key(s[0]) >= key(x) {
      InsertPermutes(s[1..], x, key);
      assert s == [s[0]] + s[1..];
    }
  }

  lemma {:induction false} InsertKeepsSorted<T>(s: seq<T>, x: T, key: T -> real)
    requires SortedDesc(s, key)
    ensures SortedDesc(Insert(s, x, key), key)
  {
    if s != [] && key(s[0]) >= key(x) {
      var rest := Insert(s[1..], x, key);
      InsertKeepsSorted(s[1..], x, key);
      InsertPermutes(s[1..], x, key);
      forall y | y in rest ensures key(s[0]) >= key(y) {
        assert y in multiset(rest);
        if y != x {
          assert y in multiset(s[1..]);
        }
      }
    }
  }

  /** Inserting into a sorted sequence places `x` after every element with the
      same key: the elements of key `key(x)` gain `x` at their end. */
  lemma {:induction false} InsertWithKey<T>(s: seq<T>, x: T, key: T -> real, v: real)
    requires SortedDesc(s, key)
    ensures WithKey(Insert(s, x, key), key, v) == WithKey(s, key, v) + (if key(x) == v then [x] else [])
  {
    if s == [] {
      assert [x][1..] == [];
    } else if key(s[0]) >= key(x) {
      var rest := Insert(s[1..], x, key);
      var head := if key(s[0]) == v then [s[0]] else [];
      assert SortedDesc(s[1..], key);
      InsertWithKey(s[1..], x, key, v);
      assert ([s[0]] + rest)[0] == s[0];
      assert ([s[0]] + rest)[1..] == rest;
      assert WithKey(Insert(s, x, key), key, v) == head + WithKey(rest, key, v);
      assert WithKey(s, key, v) == head + WithKey(s[1..], key, v);
    } else {
      assert ([x] + s)[0] == x;
      assert ([x] + s)[1..] == s;
      if key(x) == v {
        assert forall i :: 0 <= i < |s| ==> key(s[i]) <= key(s[0]);
        WithKeyNone(s, key, v);
      }
    }
  }

  lemma {:induction false} SortPermutes<T>(s: seq<T>, key: T -> real)
    ensures multiset(Sort(s, key)) == multiset(s)
  {
    if s != [] {
      var n := |s| - 1;
      SortPermutes(s[..n], key);
      InsertPermutes(Sort(s[..n], key), s[n], key);
      assert s == s[..n] + [s[n]];
    }
  }

  lemma {:induction false} SortIsSorted<T>(s: seq<T>, key: T -> real)
    ensures SortedDesc(Sort(s, key), key)
  {
    if s != [] {
      var n := |s| - 1;
      SortIsSorted(s[..n], key);
      InsertKeepsSorted(Sort(s[..n], key), s[n], key);
    }
  }

  /** The image of a sequence under `f`, element by element. */
  function Mapped<T, U>(s: seq<T>, f: T -> U): (r: seq<U>)
    ensures |r| == |s| && forall i :: 0 <= i < |s| ==> r[i] == f(s[i])
  {
    seq(|s|, i requires 0 <= i < |s| => f(s[i]))
  }

  lemma MappedCons<T, U>(x: T, s: seq<T>, f: T -> U)
    ensures Mapped([x] + s, f) == [f(x)] + Mapped(s, f)
  {
  }

  lemma {:induction false} InsertMapped<T, U>(s: seq<T>, x: T, key: T -> real, f: T -> U)
    ensures multiset(Mapped(Insert(s, x, key), f)) == multiset(Mapped(s, f)) + multiset{f(x)}
  {
    if s == [] {
      MappedCons(x, s, f);
    } else if key(s[0]) >= key(x) {
      InsertMapped(s[1..], x, key, f);
      MappedCons(s[0], Insert(s[1..], x, key), f);
      MappedCons(s[0], s[1..], f);
      assert [s[0]] + s[1..] == s;
    } else {
      MappedCons(x, s, f);
    }
  }

  /** Sorting permutes every projection of the elements (their ids, say). */
  lemma {:induction false} SortMapped<T, U>(s: seq<T>, key: T -> real, f: T -> U)
    ensures multiset(Mapped(Sort(s, key), f)) == multiset(Mapped(s, f))
  {
    if s != [] {
      var n := |s| - 1;
      SortMapped(s[..n], key, f);
      InsertMapped(Sort(s[..n], key), s[n], key, f);
      assert Mapped(s, f) == Mapped(s[..n], f) + [f(s[n])];
    }
  }

  /** Stability: for every key value, the elements with that key appear in the
      sorted sequence in the same order as in the input. */
  lemma {:induction false} SortIsStable<T>(s: seq<T>, key: T -> real, v: real)
    ensures WithKey(Sort(s, key), key, v) == WithKey(s, key, v)
  {
    if s != [] {
      var n := |s| - 1;
      SortIsStable(s[..n], key, v);
      SortIsSorted(s[..n], key);
      InsertWithKey(Sort(s[..n], key), s[n], key, v);
      assert s == s[..n] + [s[n]];
      WithKeyConcat(s[..n], [s[n]], key, v);
      assert [s[n]][1..] == [];
    }
  }

  /** Inserting into a sorted sequence puts `x` at the one position that splits
      the keys at least `key(x)` from the smaller ones. */
  lemma {:induction false} InsertAt<T>(s: seq<T>, x: T, key: T -> real, j: nat)
    requires j <= |s|
    requires forall i :: 0 <= i < j ==> key(s[i]) >= key(x)
    requires forall i :: j <= i < |s| ==> key(s[i]) < key(x)
    ensures Insert(s, x, key) == s[..j] + [x] + s[j..]
  {
    if j > 0 {
      InsertAt(s[1..], x, key, j - 1);
      assert s[..j] == [s[0]] + s[1..][..j - 1];
      assert s[j..] == s[1..][j - 1..];
    }
  }

  /** Sorting preserves any integer total over the elements. */
  lemma {:induction false} SortSumInt<T>(s: seq<T>, key: T -> real, f: T -> int)
    ensures SumInt(Sort(s, key), f) == SumInt(s, f)
  {
    if s != [] {
      var n := |s| - 1;
      SortSumInt(s[..n], key, f);
      InsertSumInt(Sort(s[..n], key), s[n], key, f);
    }
  }

  lemma {:induction false} InsertSumInt<T>(s: seq<T>, x: T, key: T -> real, f: T -> int)
    ensures SumInt(Insert(s, x, key), f) == SumInt(s, f) + f(x)
  {
    if s == [] {
      assert [x][..0] == [];
    } else if key(s[0]) >= key(x) {
      InsertSumInt(s[1..], x, key, f);
      SumIntConcat([s[0]], Insert(s[1..], x, key), f);
      SumIntConcat([s[0]], s[1..], f);
      assert [s[0]] + s[1..] == s;
      assert [s[0]][..0] == [];
    } else {
      SumIntConcat([x], s, f);
      assert [x][..0] == [];
    }
  }

  /** Sorts `a` in place by insertion: each new element sinks leftwards past
      the elements with a strictly smaller key. */
  method SortInPlace<T>(a: array<T>, key: T -> real)
    modifies a
    ensures a[..] == Sort(old(a[..]), key)
  {
    ghost var input := a[..];
    var i := 0;
    while i < a.Length
      invariant 0 <= i <= a.Length
      invariant a[..i] == Sort(input[..i], key)
      invariant a[i..] == input[i..]
    {
      SortIsSorted(input[..i], key);
      SinkLast(a, i, key);
      assert input[..i + 1] == input[..i] + [input[i]];
      assert input[..i + 1][..i] == input[..i];
      i := i + 1;
    }
    assert a[..] == a[..a.Length];
    assert input == input[..a.Length];
  }

  /** Moves `a[i]` leftwards into the sorted prefix `a[..i]`. */
  method SinkLast<T>(a: array<T>, i: nat, key: T -> real)
    requires i < a.Length
    requires SortedDesc(a[..i], key)
    modifies a
    ensures a[..i + 1] == Insert(old(a[..i]), old(a[i]), key)
    ensures a[i + 1..] == old(a[i + 1..])
  {
    ghost var sorted := a[..i];
    ghost var x := a[i];
    ghost var j := Sink(a, i, key);
    SunkIsInserted(sorted, x, key, j, a[..i + 1]);
  }

  /** Swaps `a[i]` leftwards past every strictly smaller key; returns where it
      stopped. */
  method Sink<T>(a: array<T>, i: nat, key: T -> real) returns (ghost j: nat)
    requires i < a.Length
    modifies a
    ensures j <= i && a[j] == old(a[i])
    ensures forall m :: 0 <= m < j ==> a[m] == old(a[m])
    ensures forall m :: j < m <= i ==> a[m] == old(a[m - 1])
    ensures forall m :: i < m < a.Length ==> a[m] == old(a[m])
    ensures forall m :: j <= m < i ==> key(old(a[m])) < key(old(a[i]))
    ensures j > 0 ==> key(old(a[j - 1])) >= key(old(a[i]))
  {
    ghost var before := a[..];
    var x := a[i];
    var k := i;
    while k > 0 && key(a[k - 1]) < key(a[k])
      invariant 0 <= k <= i
      invariant a[k] == x
      invariant forall m :: 0 <= m < k ==> a[m] == before[m]
      invariant forall m :: k < m <= i ==> a[m] == before[m - 1]
      invariant forall m :: i < m < a.Length ==> a[m] == before[m]
      invariant forall m :: k <= m < i ==> key(before[m]) < key(x)
    {
      a[k - 1], a[k] := a[k], a[k - 1];
      k := k - 1;
    }
    j := k;
  }

  /** The shape `SinkLast` leaves behind: `x` stopped below every larger key
      and above every smaller one, the rest shifted right by one. */
  lemma SunkIsInserted<T>(sorted: seq<T>, x: T, key: T -> real, j: nat, r: seq<T>)
    requires SortedDesc(sorted, key)
    requires j <= |sorted| && |r| == |sorted| + 1
    requires r[j] == x
    requires forall m :: 0 <= m < j ==> r[m] == sorted[m]
    requires forall m :: j < m < |r| ==> r[m] == sorted[m - 1]
    requires forall m :: j <= m < |sorted| ==> key(sorted[m]) < key(x)
    requires j > 0 ==> key(sorted[j - 1]) >= key(x)
    ensures r == Insert(sorted, x, key)
  {
    PrefixAtLeast(sorted, x, key, j);
    InsertAt(sorted, x, key, j);
    ShiftedIsSpliced(sorted, x, j, r);
  }

  lemma PrefixAtLeast<T>(sorted: seq<T>, x: T, key: T -> real, j: nat)
    requires SortedDesc(sorted, key)
    requires j <= |sorted|
    requires j > 0 ==> key(sorted[j - 1]) >= key(x)
    ensures forall m :: 0 <= m < j ==> key(sorted[m]) >= key(x)
  {
    if j > 0 {
      assert forall m :: 0 <= m < j ==> key(sorted[m]) >= key(sorted[j - 1]);
    }
  }

  lemma ShiftedIsSpliced<T>(sorted: seq<T>, x: T, j: nat, r: seq<T>)
    requires j <= |sorted| && |r| == |sorted| + 1
    requires r[j] == x
    requires forall m :: 0 <= m < j ==> r[m] == sorted[m]
    requires forall m :: j < m < |r| ==> r[m] == sorted[m - 1]
    ensures r == sorted[..j] + [x] + sorted[j..]
  {
  }
}

=== FILE: strategies.dfy ===
/** The two default strategies shipped with the pipeline. */
module Strategies {
  import opened SalesTypes

  /** Revenue of one line item: the sale price times the quantity, reduced by
      the item's percentage discount. The product card is not consulted. */
  function CalculateSimpleRevenue(item: LineItem, product: Product): (r: real)
    ensures item.discount == 0.0 ==> r == item.salePrice * item.quantity as real
    ensures item.discount == 100.0 ==> r == 0.0
    ensures r == item.salePrice * item.quantity as real - item.salePrice * item.quantity as real * item.discount / 100.0
  {
    var discountCoeff := 1.0 - item.discount / 100.0;
    item.salePrice * item.quantity as real * discountCoeff
  }

  /** For a non-negative gross amount and a discount between 0 and 100 percent,
      the revenue lies between nothing and the undiscounted amount. */
  lemma SimpleRevenueBounds(item: LineItem, product: Product)
    requires item.salePrice >= 0.0 && item.quantity >= 0
    requires 0.0 <= item.discount <= 100.0
    ensures 0.0 <= CalculateSimpleRevenue(item, product) <= item.salePrice * item.quantity as real
  {
    var gross := item.salePrice * item.quantity as real;
    assert gross >= 0.0;
    var coeff := 1.0 - item.discount / 100.0;
    assert 0.0 <= coeff <= 1.0;
    assert gross * coeff <= gross * 1.0;
    assert CalculateSimpleRevenue(item, product) == gross * coeff;
  }

  /** Bonus by rank, checked in this order: the leader gets 15% of its profit,
      ranks 1 and 2 get 10%, the last rank gets nothing, every other rank 5%. */
  function CalculateBonusByProfit(index: int, total: int, seller: SellerStats): (r: real)
    ensures r == seller.profit * BonusShare(index, total)
  {
    if index == 0 then seller.profit * 0.15
    else if index == 1 || index == 2 then seller.profit * 0.1
    else if index == total - 1 then 0.0
    else seller.profit * 0.05
  }

  /** The share of the profit that rank `index` of `total` earns. */
  function BonusShare(index: int, total: int): (r: real)
    ensures r in {0.0, 0.05, 0.1, 0.15}
    ensures r == 0.15 <==> index == 0
    ensures r == 0.1 <==> index == 1 || index == 2
    ensures 0 <= index ==> (r == 0.0 <==> index >= 3 && index == total - 1)
  {
    if index == 0 then 0.15
    else if index == 1 || index == 2 then 0.1
    else if index == total - 1 then 0.0
    else 0.05
  }

  /** The default bonus is the rank's share of the seller's profit. In
      particular the leader's 15% wins even when it is also the last rank
      (a single seller), and the zero bonus of the last rank needs at least
      four sellers. */
  lemma BonusIsShareOfProfit(index: int, total: int, seller: SellerStats)
    ensures CalculateBonusByProfit(index, total, seller) == seller.profit * BonusShare(index, total)
    ensures total == 1 && index == 0 ==> CalculateBonusByProfit(index, total, seller) == seller.profit * 0.15
    ensures 0 <= index < total && BonusShare(index, total) == 0.0 ==> total >= 4
  {
  }

  /** Over valid ranks the share never grows as the rank gets worse. */
  lemma BonusShareNonIncreasing(i: int, j: int, total: int)
    requires 0 <= i <= j < total
    ensures BonusShare(i, total) >= BonusShare(j, total)
  {
    if i != j && j == total - 1 && j >= 3 {
      assert BonusShare(j, total) == 0.0;
    }
  }

  /** For sellers ranked by non-increasing, non-negative profit, the default
      bonus never grows down the ranking. */
  lemma BonusNonIncreasing(i: int, j: int, total: int, s: SellerStats, t: SellerStats)
    requires 0 <= i <= j < total
    requires s.profit >= t.profit >= 0.0
    ensures CalculateBonusByProfit(i, total, s) >= CalculateBonusByProfit(j, total, t)
  {
    BonusIsShareOfProfit(i, total, s);
    BonusIsShareOfProfit(j, total, t);
    BonusShareNonIncreasing(i, j, total);
    var a, b := BonusShare(i, total), BonusShare(j, total);
    assert s.profit * a >= t.profit * a;
    assert t.profit * a >= t.profit * b;
  }
}

=== FILE: sums.dfy ===
/** Sums of a measure over a sequence, accumulated left to right as the
    pipeline's `+=` does. */
module Sums {

  function SumInt<T>(s: seq<T>, f: T -> int): int
  {
    if s == [] then 0 else SumInt(s[..|s| - 1], f) + f(s[|s| - 1])
  }

  function SumReal<T>(s: seq<T>, f: T -> real): real
  {
    if s == [] then 0.0 else SumReal(s[..|s| - 1], f) + f(s[|s| - 1])
  }

  lemma {:induction false} SumIntConcat<T>(a: seq<T>, b: seq<T>, f: T -> int)
    ensures SumInt(a + b, f) == SumInt(a, f) + SumInt(b, f)
  {
    if b == [] {
      assert a + b == a;
    } else {
      var b' := b[..|b| - 1];
      assert (a + b)[..|a + b| - 1] == a + b';
      SumIntConcat(a, b', f);
    }
  }

  lemma {:induction false} SumRealConcat<T>(a: seq<T>, b: seq<T>, f: T -> real)
    ensures SumReal(a + b, f) == SumReal(a, f) + SumReal(b, f)
  {
    if b == [] {
      assert a + b == a;
    } else {
      var b' := b[..|b| - 1];
      assert (a + b)[..|a + b| - 1] == a + b';
      SumRealConcat(a, b', f);
    }
  }

  /** Replacing one element changes the sum by the difference of the measures. */
  lemma {:induction false} SumIntUpdate<T>(s: seq<T>, k: nat, v: T, f: T -> int)
    requires k < |s|
    ensures SumInt(s[k := v], f) == SumInt(s, f) - f(s[k]) + f(v)
  {
    var n := |s| - 1;
    if k == n {
      assert s[k := v][..n] == s[..n];
    } else {
      assert s[k := v][..n] == s[..n][k := v];
      SumIntUpdate(s[..n], k, v, f);
    }
  }

  /** Two sequences whose measures agree element by element have equal sums. */
  lemma {:induction false} SumIntPointwise<T, U>(s: seq<T>, f: T -> int, t: seq<U>, g: U -> int)
    requires |s| == |t|
    requires forall i :: 0 <= i < |s| ==> f(s[i]) == g(t[i])
    ensures SumInt(s, f) == SumInt(t, g)
  {
    if s != [] {
      var n := |s| - 1;
      SumIntPointwise(s[..n], f, t[..n], g);
    }
  }

  /** A measure that is zero on every element sums to zero. */
  lemma {:induction false} SumIntZero<T>(s: seq<T>, f: T -> int)
    requires forall i :: 0 <= i < |s| ==> f(s[i]) == 0
    ensures SumInt(s, f) == 0
  {
    if s != [] {
      SumIntZero(s[..|s| - 1], f);
    }
  }
}

=== FILE: types.dfy ===
/** Entities of the sales report: the input records, the per-seller accumulator
    built during aggregation, the output row, and the two injected strategies. */
module SalesTypes {

  datatype Option<+T> = None | Some(value: T)

  datatype Result<+R, +E> = Success(value: R) | Failure(error: E)

  /** An input seller; identity is `id`. */
  datatype Seller = Seller(id: string, firstName: string, lastName: string)

  /** An input product card; identity is `sku`. */
  datatype Product = Product(sku: string, purchasePrice: real)

  /** One line of a purchase record; `discount` is a percentage. */
  datatype LineItem = LineItem(sku: string, quantity: int, salePrice: real, discount: real)

  /** A purchase record (receipt) attributed to one seller. */
  datatype PurchaseRecord = PurchaseRecord(sellerId: string, items: seq<LineItem>)

  /** Sold quantity per sku, in order of first sale. */
  type Tally = seq<(string, int)>

  /** The mutable per-seller accumulator of the pipeline. `bonus` is absent
      (None) until the bonus pass writes it. */
  datatype SellerStats = SellerStats(
    id: string,
    name: string,
    revenue: real,
    profit: real,
    salesCount: nat,
    productsSold: Tally,
    bonus: Option<real>)

  /** One row of the report. */
  datatype ReportRow = ReportRow(
    sellerId: string,
    name: string,
    revenue: real,
    profit: real,
    salesCount: nat,
    topProducts: seq<string>,
    bonus: real)

  /** Revenue of one line item, given the item and its product card. */
  type RevenueStrategy = (LineItem, Product) -> real

  /** Bonus of a seller, given its rank, the number of sellers and the seller. */
  type BonusStrategy = (int, int, SellerStats) -> real
}

=== FILE: validation.dfy ===
/** The input checks at the head of the pipeline. JavaScript's dynamic tests
    (falsiness, `Array.isArray`, `typeof`) are modelled as the shape of an
    abstract input value. */
module Validation {
  import opened SalesTypes

  /** A strategy slot of the options object: a falsy value (absent, null, ...),
      a truthy value that is not a function, or a function. */
  datatype Slot<F> = Absent | NotAFunction | Function(f: F)

  /** The `data` argument: falsy, or an object whose `sellers` is an array
      (Some) or not (None), whose `products` is an array or falsy (None), and
      whose `purchase_records` is an array. */
  datatype DataValue =
    | FalsyData
    | DataObject(sellers: Option<seq<Seller>>, products: Option<seq<Product>>, purchaseRecords: seq<PurchaseRecord>)

  /** The `options` argument: falsy, a non-object (number, string, function),
      an array, or any other (non-array) object with its two strategy slots. */
  datatype OptionsValue =
    | FalsyOptions
    | NonObjectOptions
    | ArrayOptions
    | OptionsObject(calculateSimpleRevenue: Slot<RevenueStrategy>, calculateBonusByProfit: Slot<BonusStrategy>)

  datatype StrategyName = RevenueFunction | BonusFunction

  datatype SalesError =
    | InvalidData
    | MissingOptions
    | MissingFunction(which: StrategyName)
    | NotAFunctionError(which: StrategyName)

  /** What the rest of the pipeline works on once the checks pass. */
  datatype Config = Config(
    sellers: seq<Seller>,
    products: seq<Product>,
    purchaseRecords: seq<PurchaseRecord>,
    revenue: RevenueStrategy,
    bonus: BonusStrategy)

  predicate DataOk(data: DataValue)
  {
    data.DataObject? && data.sellers.Some? && |data.sellers.value| > 0
  }

  /** The checks, in the order the pipeline makes them: the data, the options
      object, a missing bonus function, a missing revenue function, a bonus
      value that is not a function, a revenue value that is not a function. */
  function Validate(data: DataValue, options: OptionsValue): (r: Result<Config, SalesError>)
    ensures r.Success? <==>
      DataOk(data) && options.OptionsObject? &&
      options.calculateSimpleRevenue.Function? && options.calculateBonusByProfit.Function?
    ensures r.Success? ==>
      && r.value.sellers == data.sellers.value
      && |r.value.sellers| > 0
      && r.value.products == (if data.products.Some? then data.products.value else [])
      && r.value.purchaseRecords == data.purchaseRecords
      && r.value.revenue == options.calculateSimpleRevenue.f
      && r.value.bonus == options.calculateBonusByProfit.f
    ensures !DataOk(data) ==> r.Failure? && r.error == InvalidData
    ensures DataOk(data) && !options.OptionsObject? ==> r.Failure? && r.error == MissingOptions
    // a missing function is reported before a mistyped one, the bonus function before the revenue one
    ensures DataOk(data) && options.OptionsObject? ==>
      var bonus, revenue := options.calculateBonusByProfit, options.calculateSimpleRevenue;
      && (bonus.Absent? ==> r.Failure? && r.error == MissingFunction(BonusFunction))
      && (!bonus.Absent? && revenue.Absent? ==> r.Failure? && r.error == MissingFunction(RevenueFunction))
      && (bonus.NotAFunction? && !revenue.Absent? ==> r.Failure? && r.error == NotAFunctionError(BonusFunction))
      && (bonus.Function? && revenue.NotAFunction? ==> r.Failure? && r.error == NotAFunctionError(RevenueFunction))
  {
    if !DataOk(data) then Failure(InvalidData)
    else if !options.OptionsObject? then Failure(MissingOptions)
    else if options.calculateBonusByProfit.Absent? then Failure(MissingFunction(BonusFunction))
    else if options.calculateSimpleRevenue.Absent? then Failure(MissingFunction(RevenueFunction))
    else if options.calculateBonusByProfit.NotAFunction? then Failure(NotAFunctionError(BonusFunction))
    else if options.calculateSimpleRevenue.NotAFunction? then Failure(NotAFunctionError(RevenueFunction))
    else
      var products := if data.products.Some? then data.products.value else [];
      Success(Config(data.sellers.value, products, data.purchaseRecords,
                     options.calculateSimpleRevenue.f, options.calculateBonusByProfit.f))
  }
}
